=== FILE: README.md ===
# Hidden content in memos

A Dafny model of the hidden-content handling in
`server/forked/hidden_content.go`. It has three parts.

- **`ProcessHiddenContent`** rewrites memo text in two passes.
  - The first pass turns each block directive into a placeholder token:
    `:::hide{k=v;...}`, a line break, lines of hidden text, then `\n:::`.
  - The second pass does the same for each inline directive:
    `:::hide{k=v;...}`, white space, hidden text, then `:::`.
  - The tokens are `[hide-block{k:v,...}]` and `[hide-inline{k:v,...}]`.
    They carry the converted attributes and nothing of the hidden text.
- **`removeHiddenPlaceholders`** deletes those tokens again, inline tokens
  first and block tokens second.
- **`ProcessContentSearchFilter`** collects the keyword of every
  `content.contains("...")` clause in every filter string. It accepts the
  memo when there is no keyword. Otherwise it accepts only when every
  keyword is a substring of what `removeHiddenPlaceholders` leaves of the
  memo.

The project is laid out in modules, one per file:

- `Strings` and `Optional` (`strings.dfy`): helpers.
  - Substring search, splitting and joining on a character.
  - Counting, subsequences, and the RE2 `\s` class.
- `Patterns` (`patterns.dfy`): the five regular expressions of the file.
  - Each one is a declarative shape: a `Text` made of opener, optional
    `{...}` group, gap, body and closer, with the character classes in
    `WellFormed`.
  - Each one also has a hand-written matcher, `MatchAt`.
  - For these patterns, RE2's leftmost-first choice at a position is the
    *shortest* text of the shape there. The negated classes stop at the
    first `}` or `"`, and the lazy `.*?` stops at the first closer.
    Letting the greedy `\s+` give characters back never yields an earlier
    closer.
  - The matcher is proved to find exactly that shortest text.
- `Scanner` (`scanner.dfy`): the left-to-right, non-overlapping search that
  `ReplaceAllStringFunc`, `ReplaceAllString` and `FindAllStringSubmatch`
  share.
  - It is characterised by the declarative `LeftmostFirst` cut.
- `Attributes` (`attributes.dfy`): the conversion from `key=value;...` to
  `key:value,...`, written as the code does it.
  - `strings.Split` on `;`, then on `=`.
  - Only pieces that split into exactly two parts are kept.
  - No trimming: empty keys and values survive.
- `HiddenContent` (`hidden_content.dfy`): the replace-all passes and the two
  string functions.
- `SearchFilter` (`search_filter.dfy`): keyword collection and the filter
  decision. The source's loops are modelled as methods and proved to
  compute the declarative `Accepts`.
- `HiddenContentVectors`, `RemovalVectors` and `SearchFilterVectors`: every
  case of the three table-driven tests in
  `server/forked/hidden_content_test.go`, proved from the general lemmas.

What the code does, which the model follows:

- It does not trim keys or values. It splits each attribute piece on every
  `=` and keeps only pieces with exactly one `=`. It reserves no keys.
- A block directive ends at the first `\n:::`, with or without a line break
  after it.
- Filters are read only through their `content.contains("...")` clauses;
  the rest of each filter is ignored.

## Model

| member | source | states |
|---|---|---|
| Patterns.MatchAt | server/forked/hidden_content.go:40-197 | For each of the five patterns (:40, :62, :146, :193, :197), a match the matcher reports has the pattern's shape at the start of the text: the opener, a `{...}` group without `}`, the gap and body the pattern's classes allow, and the closer. |
| Patterns.AfterBlockOpener | server/forked/hidden_content.go:40 | After the opener, the block body starts after the required line break and is followed by `\n:::`. No `\n:::` starts anywhere inside the body, so it ends at the first one, as the lazy `(.*?)` does. The body may contain line breaks, as `(?s)` allows. |
| Patterns.AfterInlineOpener | server/forked/hidden_content.go:62 | After the opener, the gap is white space and the body does not start with white space. The body holds no line break and is followed by `:::`. No `:::` starts inside the body, so it ends at the first one. |
| Patterns.AfterContainsOpener | server/forked/hidden_content.go:146 | The clause keyword is the non-empty, quote-free text up to the first `"`, and the clause then ends in `")`. |
| Patterns.MatchAtShortest | server/forked/hidden_content.go:40-197 | For each of the five patterns (:40, :62, :146, :193, :197): wherever any text of the shape starts, the matcher finds one. It has the same `{...}` capture and is no longer than that text, so it is the leftmost-first match RE2 picks. |
| Patterns.BlockEndsAtCloser | server/forked/hidden_content.go:40 | A block directive whose body holds no `\n:` is the shortest match at its position. The lazy body stops at its own closer. |
| Patterns.InlineEndsAtCloser | server/forked/hidden_content.go:62 | An inline directive whose body holds no `:` is the shortest match at its position. |
| Patterns.ExactEndsAtCloser | server/forked/hidden_content.go:146-198 | Any text of the clause shape (:146) or of a placeholder shape (:193, :197) is the shortest match where it starts. |
| Patterns.MatchNeedsOpener | server/forked/hidden_content.go:62 | No match starts unless the opener is followed by a character the pattern allows next. For the directives this is `{` or a line break / white space. |
| Patterns.BlockNeedsNewline | server/forked/hidden_content.go:40 | A block directive match requires a line break in the text. |
| Scanner.Scan | server/forked/hidden_content.go:41 | The steps of the search consume the whole input, in order: kept characters and matched texts concatenate back to the input. |
| Scanner.ScanIsLeftmostFirst | server/forked/hidden_content.go:41 | The search keeps a character only where no match starts. It takes the shortest match where one starts, and resumes right after it. |
| Scanner.LeftmostFirstRender | server/forked/hidden_content.go:63 | Any cut that meets the leftmost-first description renders to the same replaced text, so the replace-all output is determined by the description alone. |
| Scanner.LeftmostFirstBodies | server/forked/hidden_content.go:150 | Any leftmost-first cut of a filter yields the same clause keywords, in the same order. |
| Attributes.ConvertPiece | server/forked/hidden_content.go:48-50 | A `;`-piece is kept exactly when it contains exactly one `=`. The kept form is the piece with that `=` turned into `:`; the length is unchanged and nothing is trimmed. |
| Attributes.Collect | server/forked/hidden_content.go:47-52 | The kept pairs are at most as many as the pieces. There are none exactly when no piece holds exactly one `=`. |
| Attributes.CollectAppend | server/forked/hidden_content.go:47-52 | Pieces are converted independently: converting two lists of pieces one after the other gives the conversion of their concatenation. |
| Attributes.Placeholder | server/forked/hidden_content.go:53-57 | A replacement token always starts with `[hide-inline` or `[hide-block` and ends with `]`. |
| Attributes.BareIff | server/forked/hidden_content.go:43-57 | The bare token is returned if and only if the capture is absent or no `;`-piece holds exactly one `=`. This includes the empty capture. |
| Attributes.ConvertRoundTrip | server/forked/hidden_content.go:44-54 | Attributes without separators, written `k1=v1;k2=v2;...`, come out as `[hide-kind{k1:v1,k2:v2,...}]`, every pair kept and in order. |
| Attributes.PlaceholderChars | server/forked/hidden_content.go:41-57 | A token is built only from fixed token syntax and characters of the brace capture. The hidden body contributes nothing to it. |
| HiddenContent.ReplaceAllCharacterized | server/forked/hidden_content.go:41-58 | A replace-all pass equals rendering any leftmost-first cut of its input: text outside matches is copied in order, and each match is replaced by a string computed from its brace capture only. |
| HiddenContent.ProcessHiddenContent | server/forked/hidden_content.go:37-83 | Text without `:::hide` comes back unchanged. |
| HiddenContent.ReplaceAllWithoutLead | server/forked/hidden_content.go:41 | A pass leaves text that does not contain the pattern's opener unchanged. |
| HiddenContent.BlockPassWithoutNewline | server/forked/hidden_content.go:40 | The block pass leaves text without a line break unchanged. |
| HiddenContent.ReplaceInContext | server/forked/hidden_content.go:63-79 | A directive or token that ends at its own closer, preceded by text without the opener's first character, becomes its replacement; the text before it is copied and the pass continues after it. |
| HiddenContent.LoneInline | server/forked/hidden_content.go:62-79 | A single-line inline directive among text with no other `:` becomes its inline token from the converted capture. Its gap and capture hold no line break, and neither does the text after it. The surrounding text is kept verbatim. |
| HiddenContent.LoneBlock | server/forked/hidden_content.go:40-57 | A block directive whose body has no `\n:`, among text with no other `:`, becomes its block token in the block pass. The surrounding text is kept verbatim. |
| HiddenContent.RemoveHiddenPlaceholders | server/forked/hidden_content.go:191-201 | Removal only deletes: the result is a subsequence of the input and no longer. Text without `[hide-` is returned unchanged. |
| HiddenContent.RemovalDeletes | server/forked/hidden_content.go:193-198 | The two removal passes together yield a subsequence of their input. |
| HiddenContent.RemoveLoneInline | server/forked/hidden_content.go:193-194 | An inline token, with or without a `{...}` group, among text without `[` is deleted, and exactly the surrounding text remains. |
| RemovalVectors.SplicedToken | server/forked/hidden_content.go:191-201 | Removal is one pass of each kind, not a repeat until nothing is left. Deleting the inner token of `[hide-[hide-inline]inline]` leaves `[hide-inline]`, and that token stays. |
| HiddenContent.InlinePassKeepsBlock | server/forked/hidden_content.go:193-194 | The inline-token pass leaves a block token, and text without `[` around it, untouched. |
| HiddenContent.RemoveLoneBlock | server/forked/hidden_content.go:197-198 | A block token whose group holds no `[`, among text without `[`, survives the inline pass and is deleted by the block pass. Exactly the surrounding text remains. |
| HiddenContent.RemoveInlineThenBlock | server/forked/hidden_content.go:191-201 | Among text without `[`, an inline token followed by a block token whose group holds no `[` are both deleted; the three runs of text around them are kept, in order. |
| SearchFilter.Keywords | server/forked/hidden_content.go:150-155 | Every keyword collected from a filter is non-empty and contains no `"`. |
| SearchFilter.KeywordsEmptyIff | server/forked/hidden_content.go:150-156 | A filter yields no keyword if and only if no `content.contains("...")` clause with a non-empty, quote-free keyword starts anywhere in it. |
| SearchFilter.KeywordsCharacterized | server/forked/hidden_content.go:150 | The keywords of a filter are the bodies of any leftmost-first cut of it, as `FindAllStringSubmatch` defines them. |
| SearchFilter.KeywordsInContext | server/forked/hidden_content.go:146-155 | A clause after text without `c` yields its keyword, followed by the keywords of the text after it. |
| SearchFilter.TwoClauses | server/forked/hidden_content.go:150-155 | Two clauses joined by ` && ` yield both keywords, in order. |
| SearchFilter.NoClauseIff | server/forked/hidden_content.go:158-161 | The collected list is empty if and only if no filter holds a clause, and then every memo is accepted. |
| SearchFilter.CollectKeywords | server/forked/hidden_content.go:148-156 | The collecting loop builds the keywords of all filters, flattened in filter order. |
| SearchFilter.CheckKeywords | server/forked/hidden_content.go:168-172 | The checking loop answers true if and only if every keyword is a substring of the text it is given. When it answers false, some keyword is missing. |
| SearchFilter.ProcessContentSearchFilter | server/forked/hidden_content.go:143-175 | The function accepts if and only if no keyword was collected or every keyword occurs in the memo after `removeHiddenPlaceholders`. |
| SearchFilter.AllKeywordsAppend | server/forked/hidden_content.go:148-156 | The keywords of two filter lists joined are the keywords of each, joined. |
| SearchFilter.AcceptsAppend | server/forked/hidden_content.go:148-174 | Filters combine by conjunction: a memo passes a joined filter list if and only if it passes both parts. |
| SearchFilterVectors.KeywordInSplicedPlaceholder | server/forked/hidden_content.go:163-172 | The keyword `hide-inline` occurs in `[hide-[hide-inline]inline]` only inside placeholders. The memo is still accepted, because the search runs on the `[hide-inline]` that removal leaves. |
| SearchFilter.AppendFilterNeverAccepts | server/forked/hidden_content.go:168-172 | Adding a filter never turns a rejection into an acceptance. |
| HiddenContentVectors.InlineWithoutAttributes | server/forked/hidden_content_test.go:13-17 | `This is :::hide secret::: content` becomes `This is [hide-inline] content`. |
| HiddenContentVectors.InlineWithAttributes | server/forked/hidden_content_test.go:18-22 | The inline directive with `level=high;type=sensitive` becomes `[hide-inline{level:high,type:sensitive}]` in place. |
| HiddenContentVectors.BlockWithoutAttributes | server/forked/hidden_content_test.go:23-27 | A two-line block directive becomes `[hide-block]`. |
| HiddenContentVectors.BlockWithAttributes | server/forked/hidden_content_test.go:28-32 | The block directive with `level=high;type=sensitive` becomes `[hide-block{level:high,type:sensitive}]`. |
| HiddenContentVectors.MixedInlineAndBlock | server/forked/hidden_content_test.go:33-37 | An inline directive and a block directive in one memo both become their tokens, with the lines around them kept. |
| HiddenContentVectors.NoHiddenContent | server/forked/hidden_content_test.go:38-42 | Text without directives is unchanged. |
| RemovalVectors.RemoveInline | server/forked/hidden_content_test.go:158-162 | `Public [hide-inline] content` becomes `Public  content`. |
| RemovalVectors.RemoveInlineWithAttributes | server/forked/hidden_content_test.go:163-167 | `Public [hide-inline{level:high}] content` becomes `Public  content`. |
| RemovalVectors.RemoveBlock | server/forked/hidden_content_test.go:168-172 | `Public [hide-block] content` becomes `Public  content`. |
| RemovalVectors.RemoveBlockWithAttributes | server/forked/hidden_content_test.go:173-177 | `Public [hide-block{level:high,type:sensitive}] content` becomes `Public  content`. |
| RemovalVectors.RemoveMultiple | server/forked/hidden_content_test.go:178-182 | Both tokens of `Start [hide-inline] middle [hide-block{foo:bar}] end` are deleted. |
| RemovalVectors.RemoveNothing | server/forked/hidden_content_test.go:183-187 | Text without tokens is unchanged. |
| SearchFilterVectors.KeywordFoundInVisibleContent | server/forked/hidden_content_test.go:62-67 | A visible keyword after a `creator_id` condition is found: accepted. |
| SearchFilterVectors.KeywordNotFound | server/forked/hidden_content_test.go:68-73 | A keyword absent from the memo: rejected. |
| SearchFilterVectors.KeywordInPlaceholder | server/forked/hidden_content_test.go:74-79 | The keyword `hide-inline` occurs only inside a removed token: rejected. |
| SearchFilterVectors.KeywordInPlaceholderWithAttributes | server/forked/hidden_content_test.go:80-85 | The same, with a token carrying attributes: rejected. |
| SearchFilterVectors.KeywordBesidePlaceholder | server/forked/hidden_content_test.go:86-91 | A keyword visible next to a token is still found: accepted. |
| SearchFilterVectors.AllKeywordsFound | server/forked/hidden_content_test.go:92-97 | Both keywords of one filter are present: accepted. |
| SearchFilterVectors.OneKeywordMissing | server/forked/hidden_content_test.go:98-103 | One of two keywords is absent: rejected. |
| SearchFilterVectors.KeywordsAcrossFilters | server/forked/hidden_content_test.go:104-109 | Keywords from two filters are all present: accepted. |
| SearchFilterVectors.FilterWithoutClause | server/forked/hidden_content_test.go:110-115 | A filter without a clause adds no keyword, and the other filter's keyword is found: accepted. |
| SearchFilterVectors.NoClause | server/forked/hidden_content_test.go:116-121 | No clause in any filter: accepted. |
| SearchFilterVectors.NoFilters | server/forked/hidden_content_test.go:122-127 | No filters at all: accepted. |
| SearchFilterVectors.KeywordInBlockPlaceholder | server/forked/hidden_content_test.go:128-133 | The keyword `hide-block` occurs only inside a removed block token: rejected. |
| SearchFilterVectors.KeywordsFromSeveralFilters | server/forked/hidden_content_test.go:134-139 | Three keywords, spread over two filters, are all present: accepted. |

## Left out

- The general regular-expression engine. Only the five fixed patterns of
  the file are modelled, each by a matcher proved to return the shortest
  text of the pattern's shape. For these patterns that is RE2's
  leftmost-first match.
- Encoding. Strings are sequences of characters. Go strings are UTF-8 bytes
  and its classes match runes, so invalid UTF-8 input is not modelled.
- The second match in each callback. The Go callback runs
  `FindStringSubmatch` on the matched text; the model uses the groups of
  the original match instead. The matched text starts with a match of the
  same pattern, and no shorter one exists there, so the groups agree. This
  argument is not proved in the model.
- `regexp.MustCompile` panics and the per-call compilation. The patterns
  are constants.
- The rest of the filter language (`creator_id`, `visibility`, `||`, and
  so on). The code ignores it, and so does the model.
- HiddenContent.RemoveHiddenPlaceholders: does not state that no token
  remains, nor that removal is idempotent. Neither holds for the code.
  - In `[hide-[hide-inline]inline]`, deleting the inner token joins the
    remaining text into a new `[hide-inline]`, and the single pass does
    not look again. RemovalVectors.SplicedToken proves this.
- SearchFilter.ProcessContentSearchFilter: does not promise that keywords
  are matched only in visible text, which the source's comments at
  hidden_content.go:86 and :163-164 claim. The search runs on what one
  removal pass of each kind leaves, and that can still be a placeholder.
  SearchFilterVectors.KeywordInSplicedPlaceholder proves that such a memo
  is accepted.
- HiddenContent.ProcessHiddenContent: its own contract covers only text
  without directives. Directives are covered by the per-pass lemmas
  (ReplaceAllCharacterized, LoneInline, LoneBlock) rather than by a
  closed-form output for every input.
- HiddenContent.LoneInline: stated for a directive among text with no
  other `:`. With more colons, an earlier `:::` can change where a match
  starts; that general case is covered only by ReplaceAllCharacterized.
  It also asks for no line break in the gap, in the capture or in the text
  after the directive, so that the block pass plainly leaves the text
  alone. With no other `:` around, the block pass can fire on an inline
  directive only when its body is empty and its gap ends in a line break,
  as in `:::hide\n\n:::`; the lemma does not state that narrower condition.
- HiddenContent.LoneBlock: stated for a body without `\n:` and text around
  it with no other `:`, for the same reason.
- HiddenContent.RemoveLoneInline: stated for surrounding text without `[`,
  which keeps other tokens from forming around the deleted one.
- HiddenContent.RemoveLoneBlock: stated for surrounding text without `[`,
  for the same reason, and for a block token whose group holds no `[`.
  The inline pass at hidden_content.go:193 runs first: in
  `[hide-block{[hide-inline{x}]` it deletes `[hide-inline{x}]`, and the
  `[hide-block{` left behind no longer matches the block pattern at :197.
  `ProcessHiddenContent` makes such a token from
  `:::hide{[hide-inline{x=y}\nbody\n:::`.
- HiddenContent.RemoveInlineThenBlock: stated for surrounding text
  without `[` and for a block token whose group holds no `[`, for the same
  reasons.

=== FILE: attributes.dfy ===
/** The attribute conversion of server/forked/hidden_content.go: the brace
    capture of a directive, written `key=value;key=value`, becomes the
    `key:value,key:value` list inside the placeholder token. Pieces are cut
    with `strings.Split` on `;` and then on every `=`; only pieces that cut
    into exactly two parts survive, untrimmed, empty keys and values
    included. */
module Attributes {
  import opened Optional
  import opened Strings

  datatype Kind = Inline | Block

  function KindName(k: Kind): string {
    match k
    case Inline => "inline"
    case Block => "block"
  }

  /** `[hide-inline]` / `[hide-block]`. */
  function BareToken(k: Kind): string {
    "[hide-" + KindName(k) + "]"
  }

  /** A piece is kept when it holds exactly one `=`. */
  predicate IsPair(piece: string) {
    Count(piece, '=') == 1
  }

  /** One `;`-piece as `key:value`, or None when `strings.Split(piece, "=")`
      does not give exactly two parts. The kept form is the piece with its
      single `=` turned into `:`. */
  function ConvertPiece(piece: string): (r: Option<string>)
    ensures r.Some? <==> IsPair(piece)
    ensures r.Some? ==> |r.value| == |piece|
    ensures r.Some? ==> forall i :: 0 <= i < |piece| ==>
              r.value[i] == (if piece[i] == '=' then ':' else piece[i])
  {
    var kv := Split(piece, '=');
    SplitCount(piece, '=');
    if |kv| == 2 then
      var out := kv[0] + ":" + kv[1];
      assert piece == kv[0] + "=" + kv[1];
      assert forall i :: 0 <= i < |piece| ==> (piece[i] == '=' <==> i == |kv[0]|) by {
        assert '=' !in kv[0] && '=' !in kv[1];
        forall i | 0 <= i < |piece| ensures piece[i] == '=' <==> i == |kv[0]| {
          if i < |kv[0]| {
            assert piece[i] == kv[0][i];
          } else if i > |kv[0]| {
            assert piece[i] == kv[1][i - |kv[0]| - 1];
          }
        }
      }
      Some(out)
    else None
  }

  /** The kept pieces, converted, in their original order. */
  function Collect(pieces: seq<string>): (r: seq<string>)
    ensures |r| <= |pieces|
    ensures |r| == 0 <==> forall i :: 0 <= i < |pieces| ==> !IsPair(pieces[i])
  {
    if |pieces| == 0 then []
    else
      var rest := Collect(pieces[1..]);
      assert forall i :: 1 <= i < |pieces| ==> pieces[i] == pieces[1..][i - 1];
      match ConvertPiece(pieces[0])
      case Some(kv) => [kv] + rest
      case None => rest
  }

  /** The converted pairs of a brace capture. */
  function ConvertAttrs(attrs: string): seq<string> {
    Collect(Split(attrs, ';'))
  }

  /** The replacement the directive callback returns: the bare token when the
      capture is missing or empty or no piece survives, otherwise the pairs
      joined with `,` in braces. */
  function Placeholder(k: Kind, attrs: Option<string>): (r: string)
    ensures |r| >= |BareToken(k)| - 1 && r[..|BareToken(k)| - 1] == "[hide-" + KindName(k)
    ensures r[|r| - 1] == ']'
  {
    if attrs.Some? && attrs.value != "" then
      var pairs := ConvertAttrs(attrs.value);
      if |pairs| > 0 then "[hide-" + KindName(k) + "{" + Join(pairs, ',') + "}]"
      else BareToken(k)
    else BareToken(k)
  }

  /** Collect maps each piece independently: it distributes over
      concatenation of piece lists. */
  lemma {:induction false} CollectAppend(a: seq<string>, b: seq<string>)
    ensures Collect(a + b) == Collect(a) + Collect(b)
  {
    if |a| == 0 {
      assert a + b == b;
    } else {
      assert (a + b)[0] == a[0];
      assert (a + b)[1..] == a[1..] + b;
      CollectAppend(a[1..], b);
    }
  }

  /** The bare token is emitted exactly when the capture is absent or no
      `;`-piece holds exactly one `=` (an empty capture has one empty piece). */
  lemma BareIff(k: Kind, attrs: Option<string>)
    ensures Placeholder(k, attrs) == BareToken(k) <==>
              (attrs.None? || forall i :: 0 <= i < |Split(attrs.value, ';')| ==> !IsPair(Split(attrs.value, ';')[i]))
  {
    if attrs.Some? {
      var pieces := Split(attrs.value, ';');
      if attrs.value == "" {
        assert FindChar(attrs.value, ';', 0).None?;
        assert pieces == [""];
        assert Count("", '=') == 0;
      } else if |ConvertAttrs(attrs.value)| > 0 {
        var r := Placeholder(k, attrs);
        assert r[|BareToken(k)| - 1] == '{';
        assert BareToken(k)[|BareToken(k)| - 1] == ']';
      }
    }
  }

  /** A well-behaved attribute: neither key nor value contains a separator. */
  datatype Attr = Attr(key: string, value: string)

  predicate Plain(a: Attr) {
    && ';' !in a.key && '=' !in a.key
    && ';' !in a.value && '=' !in a.value
  }

  /** The author-facing form `key=value`. */
  function Assign(a: Attr): string {
    a.key + "=" + a.value
  }

  /** The placeholder form `key:value`. */
  function Colon(a: Attr): string {
    a.key + ":" + a.value
  }

  function AssignList(attrs: seq<Attr>): (r: seq<string>)
    ensures |r| == |attrs|
    ensures forall i :: 0 <= i < |attrs| ==> r[i] == Assign(attrs[i])
  {
    if |attrs| == 0 then [] else [Assign(attrs[0])] + AssignList(attrs[1..])
  }

  function ColonList(attrs: seq<Attr>): (r: seq<string>)
    ensures |r| == |attrs|
    ensures forall i :: 0 <= i < |attrs| ==> r[i] == Colon(attrs[i])
  {
    if |attrs| == 0 then [] else [Colon(attrs[0])] + ColonList(attrs[1..])
  }

  lemma {:induction false} CollectAssignments(attrs: seq<Attr>)
    requires forall i :: 0 <= i < |attrs| ==> Plain(attrs[i])
    ensures Collect(AssignList(attrs)) == ColonList(attrs)
  {
    if |attrs| > 0 {
      var a := attrs[0];
      var piece := Assign(a);
      assert piece == Join([a.key, a.value], '=');
      SplitJoin([a.key, a.value], '=');
      assert ConvertPiece(piece) == Some(Colon(a));
      assert AssignList(attrs)[1..] == AssignList(attrs[1..]);
      CollectAssignments(attrs[1..]);
    }
  }

  lemma ConvertAssignments(attrs: seq<Attr>)
    requires |attrs| > 0
    requires forall i :: 0 <= i < |attrs| ==> Plain(attrs[i])
    ensures ConvertAttrs(Join(AssignList(attrs), ';')) == ColonList(attrs)
    ensures Join(AssignList(attrs), ';') != ""
  {
    var pieces := AssignList(attrs);
    forall i | 0 <= i < |pieces| ensures ';' !in pieces[i] {
      assert pieces[i] == Assign(attrs[i]);
    }
    SplitJoin(pieces, ';');
    CollectAssignments(attrs);
    JoinPiecesWithin(pieces, ';');
    assert '=' in pieces[0];
  }

  /** The conversion round trip: a capture `k1=v1;k2=v2;...` of plain
      attributes turns into the placeholder `[hide-kind{k1:v1,k2:v2,...}]`,
      every attribute kept, in order. */
  lemma ConvertRoundTrip(k: Kind, attrs: seq<Attr>)
    requires |attrs| > 0
    requires forall i :: 0 <= i < |attrs| ==> Plain(attrs[i])
    ensures ConvertAttrs(Join(AssignList(attrs), ';')) == ColonList(attrs)
    ensures Placeholder(k, Some(Join(AssignList(attrs), ';')))
            == "[hide-" + KindName(k) + "{" + Join(ColonList(attrs), ',') + "}]"
  {
    ConvertAssignments(attrs);
  }

  /** The converted pair list is made of characters of the capture and the
      separators `:` and `,` only. */
  lemma ConvertedChars(a: string)
    ensures CharsWithin(Join(ConvertAttrs(a), ','), ":," + a)
  {
    var allowed := ":," + a;
    var pieces := Split(a, ';');
    JoinPiecesWithin(pieces, ';');
    CollectWithin(pieces, a, allowed);
    JoinCharsWithin(ConvertAttrs(a), ',', allowed);
  }

  /** Every character of the bare tokens `[hide-inline]` and `[hide-block]`,
      each listed once. */
  const TokenLetters := "[hide-inlockb]"

  /** The placeholder is made of fixed token syntax and characters of the
      brace capture only: the hidden body can contribute nothing to it. */
  lemma PlaceholderChars(k: Kind, attrs: Option<string>)
    ensures attrs.None? ==> CharsWithin(Placeholder(k, attrs), TokenLetters)
    ensures attrs.Some? ==> CharsWithin(Placeholder(k, attrs), TokenLetters + "{}:," + attrs.value)
  {
    if attrs.Some? {
      ConvertedChars(attrs.value);
    }
  }

  lemma {:induction false} CollectWithin(pieces: seq<string>, a: string, allowed: string)
    requires ':' in allowed && CharsWithin(a, allowed)
    requires forall i :: 0 <= i < |pieces| ==> CharsWithin(pieces[i], a)
    ensures forall j :: 0 <= j < |Collect(pieces)| ==> CharsWithin(Collect(pieces)[j], allowed)
  {
    if |pieces| > 0 {
      CollectWithin(pieces[1..], a, allowed);
      var piece := pieces[0];
      match ConvertPiece(piece)
      case None =>
      case Some(kv) =>
        forall c | c in kv ensures c in allowed {
          var i :| 0 <= i < |kv| && kv[i] == c;
          assert c == ':' || c == piece[i];
        }
    }
  }
}

=== FILE: hidden_content.dfy ===
/** `ProcessHiddenContent` and `removeHiddenPlaceholders` of
    server/forked/hidden_content.go: each is two replace-all passes of the
    scanner, with the directive callbacks or the empty replacement. */
module HiddenContent {
  import opened Optional
  import opened Strings
  import opened Patterns
  import opened Attributes
  import opened Scanner

  /** One Go replace-all pass of pattern `p`. */
  function ReplaceAll(p: Pattern, s: string): string
    requires p != ContainsClause
  {
    Render(p, Scan(p, s))
  }

  /** The pass is fully described by the leftmost-first cut: whatever cut of
      `s` meets that description, replacing its hits gives the pass output.
      Text outside the hits is copied in order, and a hit is replaced by a
      string computed from its brace capture alone. */
  lemma ReplaceAllCharacterized(p: Pattern, s: string, segs: seq<Segment>)
    requires p != ContainsClause
    requires LeftmostFirst(p, s, segs)
    ensures Raw(p, segs) == s
    ensures ReplaceAll(p, s) == Render(p, segs)
  {
    LeftmostFirstRender(p, s, segs);
    LeftmostFirstRaw(p, s, segs);
  }

  lemma {:induction false} LeftmostFirstRaw(p: Pattern, s: string, segs: seq<Segment>)
    requires LeftmostFirst(p, s, segs)
    ensures Raw(p, segs) == s
    decreases |segs|
  {
    if |segs| > 0 {
      var n := |Consumed(p, segs[0])|;
      LeftmostFirstRaw(p, s[n..], segs[1..]);
      FirstConsumed(p, s, segs);
      RawStep(p, s, segs[0], segs[1..]);
      assert segs == [segs[0]] + segs[1..];
    }
  }

  /** The first step of a leftmost-first cut consumes a prefix of the text. */
  lemma FirstConsumed(p: Pattern, s: string, segs: seq<Segment>)
    requires 0 < |segs| && LeftmostFirst(p, s, segs)
    ensures IsPrefix(Consumed(p, segs[0]), s)
  {
    match segs[0]
    case Keep(c) =>
    case Hit(d) =>
  }

  lemma {:induction false} NoLeadNoMatch(p: Pattern, s: string)
    requires !Contains(s, Lead(p))
    ensures MatchAt(p, s).None?
    ensures |s| > 0 ==> !Contains(s[1..], Lead(p))
  {
    if MatchAt(p, s).Some? {
      PrefixSplit(Lead(p), Group(MatchAt(p, s).value.attrs) + Rest(p, MatchAt(p, s).value), s);
      assert OccursAt(s, Lead(p), 0);
    }
    if |s| > 0 {
      MissingInTail(s, Lead(p));
    }
  }

  /** A pass leaves text alone that does not contain its pattern's opener. */
  lemma {:induction false} ReplaceAllWithoutLead(p: Pattern, s: string)
    requires p != ContainsClause
    requires !Contains(s, Lead(p))
    ensures ReplaceAll(p, s) == s
    decreases |s|
  {
    if |s| > 0 {
      NoLeadNoMatch(p, s);
      ReplaceAllWithoutLead(p, s[1..]);
      assert Scan(p, s)[1..] == Scan(p, s[1..]);
    }
  }

  /** A pass copies a character where no match can start. */
  lemma ReplaceKeep(p: Pattern, s: string)
    requires p != ContainsClause
    requires 0 < |s| && !MayOpen(p, s)
    ensures ReplaceAll(p, s) == [s[0]] + ReplaceAll(p, s[1..])
  {
    ScanKeep(p, s);
  }

  /** A pass replaces a shortest match by the string built from its brace
      capture, and goes on after it. */
  lemma ReplaceHit(p: Pattern, s: string, d: Parts)
    requires p != ContainsClause
    requires ValidAt(p, s, d) && Shortest(p, s, d)
    ensures ReplaceAll(p, s) == Replacement(p, d.attrs) + ReplaceAll(p, s[|Text(p, d)|..])
  {
    ScanHit(p, s, d);
  }

  /** A pass copies a run of text lacking the first character of its
      opener. */
  lemma {:induction false} ReplaceRun(p: Pattern, a: string, b: string)
    requires p != ContainsClause
    requires Lead(p)[0] !in a
    ensures ReplaceAll(p, a + b) == a + ReplaceAll(p, b)
    decreases |a|
  {
    if |a| > 0 {
      SkipSplit(a, b, ReplaceAll(p, b));
      NotOpenerChar(p, a + b);
      ReplaceKeep(p, a + b);
      ReplaceRun(p, a[1..], b);
    } else {
      assert a + b == b;
    }
  }

  /** A match in context: text before it lacking the opener's first
      character is copied, the match becomes its replacement, and the pass
      goes on after it. */
  lemma ReplaceInContext(p: Pattern, pre: string, d: Parts, post: string)
    requires p != ContainsClause
    requires Lead(p)[0] !in pre
    requires WellFormed(p, d) && Closes(p, d)
    ensures ReplaceAll(p, pre + Text(p, d) + post) == pre + Replacement(p, d.attrs) + ReplaceAll(p, post)
  {
    var s := Text(p, d) + post;
    assert pre + Text(p, d) + post == pre + s;
    ReplaceRun(p, pre, s);
    assert ValidAt(p, s, d);
    EndsAtCloser(p, s, d);
    ReplaceHit(p, s, d);
    assert s[|Text(p, d)|..] == post;
  }

  /** A pass copies a piece that cannot open a match at its first
      character and lacks the opener's first character afterwards. */
  lemma ReplaceSkip(p: Pattern, a: string, b: string)
    requires p != ContainsClause
    requires 0 < |a| && !MayOpen(p, a + b) && Lead(p)[0] !in a[1..]
    ensures ReplaceAll(p, a + b) == a + ReplaceAll(p, b)
  {
    ReplaceKeep(p, a + b);
    ReplaceRun(p, a[1..], b);
    SkipSplit(a, b, ReplaceAll(p, b));
  }

  /** A match cannot start at a character other than its opener's first. */
  lemma NotOpenerChar(p: Pattern, s: string)
    requires 0 < |s| && s[0] != Lead(p)[0]
    ensures !MayOpen(p, s)
  {
  }

  lemma SkipSplit(a: string, b: string, r: string)
    requires 0 < |a|
    ensures (a + b)[0] == a[0] && (a + b)[1..] == a[1..] + b
    ensures [a[0]] + (a[1..] + r) == a + r
  {
    assert a == [a[0]] + a[1..];
  }

  /** The block pass leaves text without a line break alone. */
  lemma {:induction false} BlockPassWithoutNewline(s: string)
    requires '\n' !in s
    ensures ReplaceAll(BlockDirective, s) == s
    decreases |s|
  {
    if |s| > 0 {
      BlockNeedsNewline(s);
      assert '\n' !in s[1..];
      BlockPassWithoutNewline(s[1..]);
      assert Scan(BlockDirective, s)[1..] == Scan(BlockDirective, s[1..]);
    }
  }

  /** A pass leaves text lacking its opener's first character alone. */
  lemma ReplaceAllWithoutOpenerChar(p: Pattern, s: string)
    requires p != ContainsClause
    requires Lead(p)[0] !in s
    ensures ReplaceAll(p, s) == s
  {
    ReplaceRun(p, s, "");
    assert s + "" == s;
  }

  /** `ProcessHiddenContent`: the block pass, then the inline pass. */
  function ProcessHiddenContent(content: string): (r: string)
    ensures !Contains(content, ":::hide") ==> r == content
  {
    DirectivesWithoutMarker(content);
    ReplaceAll(InlineDirective, ReplaceAll(BlockDirective, content))
  }

  /** Both directive passes leave text without `:::hide` alone. */
  lemma DirectivesWithoutMarker(content: string)
    ensures !Contains(content, ":::hide") ==>
      ReplaceAll(InlineDirective, ReplaceAll(BlockDirective, content)) == content
  {
    if !Contains(content, ":::hide") {
      ReplaceAllWithoutLead(BlockDirective, content);
      ReplaceAllWithoutLead(InlineDirective, content);
    }
  }

  /** A placeholder-removing pass only deletes characters. */
  lemma {:induction false} DeletionRender(p: Pattern, segs: seq<Segment>)
    requires p == InlinePlaceholder || p == BlockPlaceholder
    ensures IsSubsequence(Render(p, segs), Raw(p, segs))
    decreases |segs|
  {
    if |segs| > 0 {
      DeletionRender(p, segs[1..]);
      var out, raw := Render(p, segs[1..]), Raw(p, segs[1..]);
      match segs[0]
      case Keep(c) =>
        assert Render(p, segs) == [c] + out;
        assert Raw(p, segs) == [c] + raw;
        assert ([c] + out)[1..] == out && ([c] + raw)[1..] == raw;
      case Hit(d) =>
        assert Render(p, segs) == out;
        SubsequenceSkip(out, Text(p, d), raw);
    }
  }

  /** The two removal passes. */
  function RemovalPasses(content: string): string {
    ReplaceAll(BlockPlaceholder, ReplaceAll(InlinePlaceholder, content))
  }

  lemma RemovalDeletes(content: string)
    ensures IsSubsequence(RemovalPasses(content), content)
    ensures |RemovalPasses(content)| <= |content|
  {
    var afterInline := ReplaceAll(InlinePlaceholder, content);
    var r := RemovalPasses(content);
    DeletionRender(InlinePlaceholder, Scan(InlinePlaceholder, content));
    DeletionRender(BlockPlaceholder, Scan(BlockPlaceholder, afterInline));
    SubsequenceTrans(r, afterInline, content);
    SubsequenceLength(r, content);
  }

  /** Both removal passes leave text without `[hide-` alone. */
  lemma RemovalWithoutMarker(content: string)
    ensures !Contains(content, "[hide-") ==> RemovalPasses(content) == content
  {
    if !Contains(content, "[hide-") {
      NoLongerMarker(content, "[hide-", "inline");
      assert Lead(InlinePlaceholder) == "[hide-" + "inline";
      ReplaceAllWithoutLead(InlinePlaceholder, content);
      NoLongerMarker(content, "[hide-", "block");
      assert Lead(BlockPlaceholder) == "[hide-" + "block";
      ReplaceAllWithoutLead(BlockPlaceholder, content);
    }
  }

  /** `removeHiddenPlaceholders`: inline placeholders first, then block
      placeholders. It only deletes, and leaves text without `[hide-` as is. */
  function RemoveHiddenPlaceholders(content: string): (r: string)
    ensures IsSubsequence(r, content)
    ensures |r| <= |content|
    ensures !Contains(content, "[hide-") ==> r == content
  {
    RemovalDeletes(content);
    RemovalWithoutMarker(content);
    ReplaceAll(BlockPlaceholder, ReplaceAll(InlinePlaceholder, content))
  }

  lemma NoLongerMarker(s: string, x: string, y: string)
    requires !Contains(s, x)
    ensures !Contains(s, x + y)
  {
    forall i | 0 <= i <= |s| - |x + y| ensures !OccursAt(s, x + y, i) {
      if OccursAt(s, x + y, i) {
        assert s[i..i + |x|] == (x + y)[..|x|];
        assert OccursAt(s, x, i);
      }
    }
  }

  /** The two directive passes, in order. */
  lemma ProcessPasses(content: string)
    ensures ProcessHiddenContent(content) == ReplaceAll(InlineDirective, ReplaceAll(BlockDirective, content))
  {
  }

  /** The two removal passes, in order. */
  lemma RemovalIsPasses(content: string)
    ensures RemoveHiddenPlaceholders(content) == RemovalPasses(content)
  {
  }

  /** A single-line inline directive, in text with no other `:` and no line
      break after it, becomes its placeholder; everything around it is kept. */
  lemma LoneInline(pre: string, d: Parts, post: string)
    requires ':' !in pre && ':' !in post
    requires '\n' !in post && '\n' !in d.gap
    requires d.attrs.Some? ==> '\n' !in d.attrs.value
    requires WellFormed(InlineDirective, d) && ':' !in d.body
    ensures ProcessHiddenContent(pre + Text(InlineDirective, d) + post)
            == pre + Placeholder(Inline, d.attrs) + post
  {
    var p := InlineDirective;
    var s := pre + Text(p, d) + post;
    assert '\n' !in Group(d.attrs);
    assert '\n' !in Text(p, d);
    BlockPassWithoutNewline(Text(p, d) + post);
    Assoc(pre, Text(p, d), post);
    ReplaceRun(BlockDirective, pre, Text(p, d) + post);
    ReplaceInContext(p, pre, d, post);
    ReplaceAllWithoutOpenerChar(p, post);
    ProcessPasses(s);
  }

  /** A block directive, in text with no other `:`, becomes its placeholder
      in the block pass; everything around it is kept. */
  lemma LoneBlock(pre: string, d: Parts, post: string)
    requires ':' !in pre && ':' !in post
    requires WellFormed(BlockDirective, d) && NoCloserInside(d.body)
    ensures ReplaceAll(BlockDirective, pre + Text(BlockDirective, d) + post)
            == pre + Placeholder(Block, d.attrs) + post
  {
    ReplaceInContext(BlockDirective, pre, d, post);
    ReplaceAllWithoutOpenerChar(BlockDirective, post);
  }

  /** A placeholder whose brace capture holds no `[`: the only `[` in it is
      its first character. */
  predicate BracketFree(p: Pattern, d: Parts) {
    WellFormed(p, d) && (d.attrs.Some? ==> '[' !in d.attrs.value)
  }

  lemma BracketOnlyFirst(p: Pattern, d: Parts)
    requires p == InlinePlaceholder || p == BlockPlaceholder
    requires BracketFree(p, d)
    ensures 0 < |Text(p, d)| && '[' !in Text(p, d)[1..]
  {
    var lead, g := Lead(p), Group(d.attrs);
    assert '[' !in lead[1..] by {
      if p == InlinePlaceholder {
        assert lead[1..] == "hide-inline";
      } else {
        assert lead[1..] == "hide-block";
      }
    }
    assert '[' !in g by {
      if d.attrs.Some? {
        assert g == "{" + d.attrs.value + "}";
      }
    }
    LaterCharsLack(lead, g + Rest(p, d), '[');
  }

  lemma LaterCharsLack(a: string, b: string, c: char)
    requires 0 < |a| && c !in a[1..] && c !in b
    ensures c !in (a + b)[1..]
  {
    assert (a + b)[1..] == a[1..] + b;
  }

  /** The inline-placeholder pass copies a block placeholder: its opener
      parts from `[hide-inline` at the seventh character. */
  lemma InlinePassOverBlockToken(d: Parts, post: string)
    requires BracketFree(BlockPlaceholder, d)
    ensures ReplaceAll(InlinePlaceholder, Text(BlockPlaceholder, d) + post)
            == Text(BlockPlaceholder, d) + ReplaceAll(InlinePlaceholder, post)
  {
    var t := Text(BlockPlaceholder, d);
    BracketOnlyFirst(BlockPlaceholder, d);
    assert (t + post)[6] == 'b';
    ReplaceSkip(InlinePlaceholder, t, post);
  }

  /** A lone inline placeholder is deleted; the text around it is kept. */
  lemma RemoveLoneInline(pre: string, d: Parts, post: string)
    requires '[' !in pre && '[' !in post
    requires WellFormed(InlinePlaceholder, d)
    ensures RemoveHiddenPlaceholders(pre + Text(InlinePlaceholder, d) + post) == pre + post
  {
    PassDeletes(InlinePlaceholder, pre, d, post);
    ReplaceAllWithoutOpenerChar(BlockPlaceholder, pre + post);
    RemovalIsPasses(pre + Text(InlinePlaceholder, d) + post);
  }

  /** The inline-placeholder pass copies text holding one block
      placeholder and no other `[`. */
  lemma InlinePassKeepsBlock(pre: string, d: Parts, post: string)
    requires '[' !in pre && '[' !in post
    requires BracketFree(BlockPlaceholder, d)
    ensures ReplaceAll(InlinePlaceholder, pre + Text(BlockPlaceholder, d) + post)
            == pre + Text(BlockPlaceholder, d) + post
  {
    var t := Text(BlockPlaceholder, d);
    InlinePassOverBlockToken(d, post);
    ReplaceAllWithoutOpenerChar(InlinePlaceholder, post);
    ReplaceRun(InlinePlaceholder, pre, t + post);
    assert pre + t + post == pre + (t + post);
  }

  /** A placeholder pass deletes a lone placeholder of its kind. */
  lemma PassDeletes(p: Pattern, pre: string, d: Parts, post: string)
    requires p == InlinePlaceholder || p == BlockPlaceholder
    requires '[' !in pre && '[' !in post
    requires WellFormed(p, d)
    ensures ReplaceAll(p, pre + Text(p, d) + post) == pre + post
  {
    ReplaceInContext(p, pre, d, post);
    ReplaceAllWithoutOpenerChar(p, post);
    assert Replacement(p, d.attrs) == "";
    EmptyUnit(pre);
  }

  /** A lone block placeholder is deleted; the text around it is kept. */
  lemma RemoveLoneBlock(pre: string, d: Parts, post: string)
    requires '[' !in pre && '[' !in post
    requires BracketFree(BlockPlaceholder, d)
    ensures RemoveHiddenPlaceholders(pre + Text(BlockPlaceholder, d) + post) == pre + post
  {
    InlinePassKeepsBlock(pre, d, post);
    PassDeletes(BlockPlaceholder, pre, d, post);
    RemovalIsPasses(pre + Text(BlockPlaceholder, d) + post);
  }

  /** An inline placeholder and then a block placeholder are both deleted;
      the three runs of text around them are kept. */
  lemma RemoveInlineThenBlock(pre: string, i: Parts, mid: string, b: Parts, post: string)
    requires '[' !in pre && '[' !in mid && '[' !in post
    requires WellFormed(InlinePlaceholder, i) && BracketFree(BlockPlaceholder, b)
    ensures RemoveHiddenPlaceholders(pre + Text(InlinePlaceholder, i) + (mid + Text(BlockPlaceholder, b) + post))
            == pre + (mid + post)
  {
    var s := pre + Text(InlinePlaceholder, i) + (mid + Text(BlockPlaceholder, b) + post);
    var front := pre + mid;
    InlinePassInlineThenBlock(pre, i, mid, b, post);
    assert '[' !in front;
    PassDeletes(BlockPlaceholder, front, b, post);
    RemovalThroughPasses(s, front + Text(BlockPlaceholder, b) + post, front + post);
    Assoc(pre, mid, post);
  }

  /** Removal is the block pass after the inline pass. */
  lemma RemovalThroughPasses(content: string, afterInline: string, out: string)
    requires ReplaceAll(InlinePlaceholder, content) == afterInline
    requires ReplaceAll(BlockPlaceholder, afterInline) == out
    ensures RemoveHiddenPlaceholders(content) == out
  {
    RemovalIsPasses(content);
  }

  lemma InlinePassInlineThenBlock(pre: string, i: Parts, mid: string, b: Parts, post: string)
    requires '[' !in pre && '[' !in mid && '[' !in post
    requires WellFormed(InlinePlaceholder, i) && BracketFree(BlockPlaceholder, b)
    ensures ReplaceAll(InlinePlaceholder, pre + Text(InlinePlaceholder, i) + (mid + Text(BlockPlaceholder, b) + post))
            == (pre + mid) + Text(BlockPlaceholder, b) + post
  {
    var rest := mid + Text(BlockPlaceholder, b) + post;
    InlinePassKeepsBlock(mid, b, post);
    ReplaceInContext(InlinePlaceholder, pre, i, rest);
    var t := Text(BlockPlaceholder, b);
    assert Replacement(InlinePlaceholder, i.attrs) == "";
    EmptyUnit(pre);
    Assoc(pre, mid + t, post);
    Assoc(pre, mid, t);
  }
}

=== FILE: hidden_vectors.dfy ===
/** The cases of `TestProcessHiddenContent` in
    server/forked/hidden_content_test.go, proved from the step lemmas.

    Each case is cut into the pieces the two passes see. A lemma about a
    pass keeps part of its input symbolic and chains the step lemmas; a
    lemma about literals only states how a literal splits into pieces. */
module HiddenContentVectors {
  import opened Optional
  import opened Strings
  import opened Patterns
  import opened Attributes
  import opened HiddenContent

  /** The converted capture of the attribute cases. */
  lemma LevelHighTypeSensitive(k: Kind)
    ensures Placeholder(k, Some("level=high;type=sensitive"))
            == "[hide-" + KindName(k) + "{" + "level:high,type:sensitive" + "}]"
  {
    var attrs := [Attr("level", "high"), Attr("type", "sensitive")];
    LevelHighTypeSensitivePlain(attrs);
    LevelHighTypeSensitiveAssigned(attrs);
    LevelHighTypeSensitiveConverted(attrs);
    ConvertRoundTrip(k, attrs);
  }

  lemma LevelHighTypeSensitivePlain(attrs: seq<Attr>)
    requires attrs == [Attr("level", "high"), Attr("type", "sensitive")]
    ensures |attrs| > 0 && forall i :: 0 <= i < |attrs| ==> Plain(attrs[i])
  {
    assert Plain(attrs[0]) && Plain(attrs[1]);
  }

  lemma LevelHighTypeSensitiveAssigned(attrs: seq<Attr>)
    requires attrs == [Attr("level", "high"), Attr("type", "sensitive")]
    ensures Join(AssignList(attrs), ';') == "level=high;type=sensitive"
  {
    var al := AssignList(attrs);
    assert al == [Assign(attrs[0]), Assign(attrs[1])];
    JoinTwo(al, ';');
    LevelHighTypeSensitiveAssignedText(al[0], al[1]);
  }

  lemma LevelHighTypeSensitiveAssignedText(a: string, b: string)
    requires a == Assign(Attr("level", "high")) && b == Assign(Attr("type", "sensitive"))
    ensures a + [';'] + b == "level=high;type=sensitive"
  {
    assert a == "level=high" && b == "type=sensitive";
    assert "level=high" + ";" == "level=high;";
  }

  /** Joining two strings puts the separator between them. */
  lemma JoinTwo(xs: seq<string>, sep: char)
    requires |xs| == 2
    ensures Join(xs, sep) == xs[0] + [sep] + xs[1]
  {
    assert Join(xs[1..], sep) == xs[1];
  }

  lemma LevelHighTypeSensitiveConverted(attrs: seq<Attr>)
    requires attrs == [Attr("level", "high"), Attr("type", "sensitive")]
    ensures Join(ColonList(attrs), ',') == "level:high,type:sensitive"
  {
    var cl := ColonList(attrs);
    assert cl == [Colon(attrs[0]), Colon(attrs[1])];
    JoinTwo(cl, ',');
    LevelHighTypeSensitiveConvertedText(cl[0], cl[1]);
  }

  lemma LevelHighTypeSensitiveConvertedText(a: string, b: string)
    requires a == Colon(Attr("level", "high")) && b == Colon(Attr("type", "sensitive"))
    ensures a + [','] + b == "level:high,type:sensitive"
  {
    assert a == "level:high" && b == "type:sensitive";
    assert "level:high" + "," == "level:high,";
  }

  lemma InlineLevelHighTypeSensitive()
    ensures Placeholder(Inline, Some("level=high;type=sensitive")) == "[hide-inline{level:high,type:sensitive}]"
  {
    LevelHighTypeSensitive(Inline);
    InlineLevelHighTypeSensitiveText();
  }

  lemma InlineLevelHighTypeSensitiveText()
    ensures "[hide-" + KindName(Inline) + "{" + "level:high,type:sensitive" + "}]"
            == "[hide-inline{level:high,type:sensitive}]"
  {
    assert "[hide-" + "inline" == "[hide-inline";
    assert "[hide-inline" + "{" == "[hide-inline{";
    assert "[hide-inline{" + "level:high,type:sensitive" == "[hide-inline{level:high,type:sensitive";
  }

  lemma BlockLevelHighTypeSensitive()
    ensures Placeholder(Block, Some("level=high;type=sensitive")) == "[hide-block{level:high,type:sensitive}]"
  {
    LevelHighTypeSensitive(Block);
    BlockLevelHighTypeSensitiveText();
  }

  lemma BlockLevelHighTypeSensitiveText()
    ensures "[hide-" + KindName(Block) + "{" + "level:high,type:sensitive" + "}]"
            == "[hide-block{level:high,type:sensitive}]"
  {
    assert "[hide-" + "block" == "[hide-block";
    assert "[hide-block" + "{" == "[hide-block{";
    assert "[hide-block{" + "level:high,type:sensitive" == "[hide-block{level:high,type:sensitive";
  }

  /** The converted capture of the mixed case. */
  lemma FooBar(k: Kind)
    ensures Placeholder(k, Some("foo=bar")) == "[hide-" + KindName(k) + "{" + "foo:bar" + "}]"
  {
    var attrs := [Attr("foo", "bar")];
    FooBarLists(attrs);
    ConvertRoundTrip(k, attrs);
  }

  lemma FooBarLists(attrs: seq<Attr>)
    requires attrs == [Attr("foo", "bar")]
    ensures Join(AssignList(attrs), ';') == "foo=bar"
    ensures Join(ColonList(attrs), ',') == "foo:bar"
  {
    var al, cl := AssignList(attrs), ColonList(attrs);
    assert al[0] == "foo=bar" && cl[0] == "foo:bar";
    assert al == ["foo=bar"] && cl == ["foo:bar"];
  }

  lemma BlockFooBar()
    ensures Placeholder(Block, Some("foo=bar")) == "[hide-block{foo:bar}]"
  {
    FooBar(Block);
    BlockFooBarText();
  }

  lemma BlockFooBarText()
    ensures "[hide-" + KindName(Block) + "{" + "foo:bar" + "}]" == "[hide-block{foo:bar}]"
  {
    assert "[hide-" + "block" == "[hide-block";
    assert "[hide-block" + "{" == "[hide-block{";
  }

  lemma BareTokens()
    ensures Placeholder(Inline, None) == "[hide-inline]"
    ensures Placeholder(Block, None) == "[hide-block]"
  {
  }

  /** Empty text on both sides changes nothing. */
  lemma Bare(x: string)
    ensures "" + x + "" == x
  {
  }

  /** hidden_content_test.go:13-17. The input and output are written as
      the text before, the match or its token, and the text after. */
  lemma InlineWithoutAttributes()
    ensures ProcessHiddenContent("This is " + ":::hide secret:::" + " content")
            == "This is " + "[hide-inline]" + " content"
  {
    var d := Parts(None, " ", "secret");
    InlineWithoutAttributesText(d);
    LoneInline("This is ", d, " content");
    BareTokens();
  }

  lemma InlineWithoutAttributesText(d: Parts)
    requires d == Parts(None, " ", "secret")
    ensures Text(InlineDirective, d) == ":::hide secret:::"
  {
    assert "secret" + ":::" == "secret:::";
  }

  /** hidden_content_test.go:18-22. */
  lemma InlineWithAttributes()
    ensures ProcessHiddenContent("This is " + ":::hide{level=high;type=sensitive} secret:::" + " content")
            == "This is " + "[hide-inline{level:high,type:sensitive}]" + " content"
  {
    var d := Parts(Some("level=high;type=sensitive"), " ", "secret");
    InlineWithAttributesText(d);
    InlineWithAttributesFits(d);
    LoneInline("This is ", d, " content");
    InlineLevelHighTypeSensitive();
  }

  lemma InlineWithAttributesFits(d: Parts)
    requires d == Parts(Some("level=high;type=sensitive"), " ", "secret")
    ensures WellFormed(InlineDirective, d) && ':' !in d.body
    ensures '\n' !in d.gap && '\n' !in d.attrs.value
  {
  }

  lemma InlineWithAttributesText(d: Parts)
    requires d == Parts(Some("level=high;type=sensitive"), " ", "secret")
    ensures Text(InlineDirective, d) == ":::hide{level=high;type=sensitive} secret:::"
  {
    TextLeft(InlineDirective, d);
    assert Group(d.attrs) == "{level=high;type=sensitive}" by {
      assert "{" + "level=high;type=sensitive" == "{level=high;type=sensitive";
    }
    InlineWithAttributesPieces();
  }

  lemma InlineWithAttributesPieces()
    ensures ":::hide" + "{level=high;type=sensitive}" + " " + "secret" + ":::"
            == ":::hide{level=high;type=sensitive} secret:::"
  {
    assert ":::hide" + "{level=high;type=sensitive}" == ":::hide{level=high;type=sensitive}";
    assert ":::hide{level=high;type=sensitive}" + " " == ":::hide{level=high;type=sensitive} ";
  }

  /** The parts of the block cases fit the block pattern, and the two
      hidden lines hold no `:`. */
  lemma SecretLinesFit(d: Parts)
    requires d.gap == "\n" && d.body == "Secret line 1\nSecret line 2"
    requires d.attrs.Some? ==> '}' !in d.attrs.value
    ensures WellFormed(BlockDirective, d) && ':' !in d.body
  {
    SecretLinesNoColon(d.body);
  }

  lemma SecretLinesNoColon(body: string)
    requires body == "Secret line 1\nSecret line 2"
    ensures ':' !in body
  {
  }

  lemma LevelHighTypeSensitiveNoBrace(a: string)
    requires a == "level=high;type=sensitive"
    ensures '}' !in a && '\n' !in a
  {
  }

  /** A block directive that is the whole text becomes its token. */
  lemma BlockAlone(d: Parts)
    requires WellFormed(BlockDirective, d) && ':' !in d.body
    ensures ReplaceAll(BlockDirective, Text(BlockDirective, d)) == Placeholder(Block, d.attrs)
  {
    NoColonNoCloser(d.body);
    LoneBlock("", d, "");
    Bare(Text(BlockDirective, d));
    Bare(Placeholder(Block, d.attrs));
  }

  /** hidden_content_test.go:23-27. */
  lemma BlockWithoutAttributes()
    ensures ProcessHiddenContent(":::hide\nSecret line 1\nSecret line 2\n:::") == "[hide-block]"
  {
    var d := Parts(None, "\n", "Secret line 1\nSecret line 2");
    BlockWithoutAttributesText(d);
    SecretLinesFit(d);
    BlockAlone(d);
    BareTokens();
    ReplaceAllWithoutOpenerChar(InlineDirective, "[hide-block]");
    ProcessPasses(":::hide\nSecret line 1\nSecret line 2\n:::");
  }

  lemma BlockWithoutAttributesText(d: Parts)
    requires d == Parts(None, "\n", "Secret line 1\nSecret line 2")
    ensures Text(BlockDirective, d) == ":::hide\nSecret line 1\nSecret line 2\n:::"
  {
    TextLeft(BlockDirective, d);
    BlockWithoutAttributesPieces();
  }

  lemma BlockWithoutAttributesPieces()
    ensures ":::hide" + "" + "\n" + "Secret line 1\nSecret line 2" + "\n:::" == ":::hide\nSecret line 1\nSecret line 2\n:::"
  {
    assert ":::hide" + "" + "\n" == ":::hide\n";
    assert ":::hide\n" + "Secret line 1\nSecret line 2" == ":::hide\nSecret line 1\nSecret line 2";
  }

  /** hidden_content_test.go:28-32. */
  lemma BlockWithAttributes()
    ensures ProcessHiddenContent(":::hide{level=high;type=sensitive}\nSecret line 1\nSecret line 2\n:::")
            == "[hide-block{level:high,type:sensitive}]"
  {
    var d := Parts(Some("level=high;type=sensitive"), "\n", "Secret line 1\nSecret line 2");
    BlockWithAttributesText(d);
    LevelHighTypeSensitiveNoBrace(d.attrs.value);
    SecretLinesFit(d);
    BlockAlone(d);
    BlockLevelHighTypeSensitive();
    InlinePassOverToken();
    ProcessPasses(":::hide{level=high;type=sensitive}\nSecret line 1\nSecret line 2\n:::");
  }

  lemma BlockWithAttributesText(d: Parts)
    requires d == Parts(Some("level=high;type=sensitive"), "\n", "Secret line 1\nSecret line 2")
    ensures Text(BlockDirective, d) == ":::hide{level=high;type=sensitive}\nSecret line 1\nSecret line 2\n:::"
  {
    TextLeft(BlockDirective, d);
    assert Group(d.attrs) == "{level=high;type=sensitive}" by {
      assert "{" + "level=high;type=sensitive" == "{level=high;type=sensitive";
    }
    BlockWithAttributesPieces();
  }

  lemma BlockWithAttributesPieces()
    ensures ":::hide" + "{level=high;type=sensitive}" + "\n" + "Secret line 1\nSecret line 2" + "\n:::"
            == ":::hide{level=high;type=sensitive}\nSecret line 1\nSecret line 2\n:::"
  {
    BlockWithAttributesOpening();
    assert ":::hide{level=high;type=sensitive}\n" + "Secret line 1\nSecret line 2"
        == ":::hide{level=high;type=sensitive}\nSecret line 1\nSecret line 2";
  }

  lemma BlockWithAttributesOpening()
    ensures ":::hide" + "{level=high;type=sensitive}" + "\n" == ":::hide{level=high;type=sensitive}\n"
  {
    assert ":::hide" + "{level=high;type=sensitive}" == ":::hide{level=high;type=sensitive}";
  }

  /** The inline pass leaves the block token alone: each `:` in it is
      followed by a letter. */
  lemma InlinePassOverToken()
    ensures ReplaceAll(InlineDirective, "[hide-block{level:high,type:sensitive}]")
            == "[hide-block{level:high,type:sensitive}]"
  {
    InlinePassOverTokenPieces("[hide-block{level", ":high,type", ":sensitive}]");
    TokenPieces();
  }

  lemma TokenPieces()
    ensures "[hide-block{level" + (":high,type" + ":sensitive}]") == "[hide-block{level:high,type:sensitive}]"
  {
    assert ":high,type" + ":sensitive}]" == ":high,type:sensitive}]";
  }

  lemma InlinePassOverTokenPieces(h: string, a: string, b: string)
    requires h == "[hide-block{level" && a == ":high,type" && b == ":sensitive}]"
    ensures ReplaceAll(InlineDirective, h + (a + b)) == h + (a + b)
  {
    InlinePassOverColonPiece(b);
    TokenMiddleCannotOpen(a, b);
    ReplaceSkip(InlineDirective, a, b);
    ReplaceRun(InlineDirective, h, a + b);
  }

  lemma TokenMiddleCannotOpen(a: string, b: string)
    requires a == ":high,type" && b == ":sensitive}]"
    ensures 0 < |a| && !MayOpen(InlineDirective, a + b) && ':' !in a[1..]
  {
    assert (a + b)[1] == 'h';
  }

  /** A last piece whose only `:` starts it and is not followed by `::`. */
  lemma InlinePassOverColonPiece(b: string)
    requires 1 < |b| && b[0] == ':' && b[1] != ':' && ':' !in b[1..]
    ensures ReplaceAll(InlineDirective, b) == b
  {
    assert ReplaceAll(InlineDirective, "") == "";
    assert b + "" == b;
    ReplaceSkip(InlineDirective, b, "");
  }

  /** hidden_content_test.go:33-37: an inline directive, then a block
      directive on its own lines. The block pass skips the inline
      directive (its opener is followed by a space, not `{` or a line
      break); the inline pass then finds it, and skips the block token. */
  lemma MixedInlineAndBlock()
    ensures ProcessHiddenContent("Start :::hide inline::: middle\n:::hide{foo=bar}\nblock content\n:::\nend")
            == "Start [hide-inline] middle\n[hide-block{foo:bar}]\nend"
  {
    var content := "Start :::hide inline::: middle\n:::hide{foo=bar}\nblock content\n:::\nend";
    var block := Parts(Some("foo=bar"), "\n", "block content");
    var inline := Parts(None, " ", "inline");
    MixedInput(block);
    MixedBlockFits(block);
    MixedBlockPass(block, "\nend");
    BlockFooBar();
    MixedInlinePass(inline, "[hide-block{foo:bar}]" + "\nend");
    MixedOutput();
    BareTokens();
    ProcessPasses(content);
  }

  /** A text of a pattern, written left to right. */
  lemma TextLeft(p: Pattern, d: Parts)
    ensures Text(p, d) == Lead(p) + Group(d.attrs) + d.gap + d.body + Tail(p)
  {
  }

  lemma MixedInput(block: Parts)
    requires block == Parts(Some("foo=bar"), "\n", "block content")
    ensures "Start " + (":::hide inline::: middle\n" + (Text(BlockDirective, block) + "\nend"))
            == "Start :::hide inline::: middle\n:::hide{foo=bar}\nblock content\n:::\nend"
  {
    TextLeft(BlockDirective, block);
    assert Group(block.attrs) == "{foo=bar}" by {
      assert "{" + "foo=bar" == "{foo=bar}"[..8];
    }
    var a, b, c, d := "Start ", ":::hide inline::: middle\n", ":::hide", "{foo=bar}";
    var e, f, g, h := "\n", "block content", "\n:::", "\nend";
    var x := c + d + e + f + g;
    Assoc(b, x, h);
    Assoc(a, b + x, h);
    Assoc(a, b, x);
    Assoc(a + b, c + d + e + f, g);
    Assoc(a + b, c + d + e, f);
    Assoc(a + b, c + d, e);
    Assoc(a + b, c, d);
    MixedInputPieces();
  }

  lemma MixedInputPieces()
    ensures "Start " + ":::hide inline::: middle\n" + ":::hide" + "{foo=bar}" + "\n" + "block content" + "\n:::" + "\nend"
            == "Start :::hide inline::: middle\n:::hide{foo=bar}\nblock content\n:::\nend"
  {
    MixedInputHead();
    assert "Start :::hide inline::: middle\n:::hide{foo=bar}" + "\n" == "Start :::hide inline::: middle\n:::hide{foo=bar}\n";
    assert "Start :::hide inline::: middle\n:::hide{foo=bar}\n" + "block content"
        == "Start :::hide inline::: middle\n:::hide{foo=bar}\nblock content";
    assert "Start :::hide inline::: middle\n:::hide{foo=bar}\nblock content" + "\n:::"
        == "Start :::hide inline::: middle\n:::hide{foo=bar}\nblock content\n:::";
  }

  lemma MixedInputHead()
    ensures "Start " + ":::hide inline::: middle\n" + ":::hide" + "{foo=bar}"
            == "Start :::hide inline::: middle\n:::hide{foo=bar}"
  {
    assert "Start " + ":::hide inline::: middle\n" == "Start :::hide inline::: middle\n";
    assert "Start :::hide inline::: middle\n" + ":::hide" == "Start :::hide inline::: middle\n:::hide";
  }

  lemma MixedBlockFits(block: Parts)
    requires block == Parts(Some("foo=bar"), "\n", "block content")
    ensures WellFormed(BlockDirective, block) && ':' !in block.body
  {
  }

  /** The block pass of the mixed case. */
  lemma MixedBlockPass(block: Parts, tail: string)
    requires WellFormed(BlockDirective, block) && ':' !in block.body && ':' !in tail
    ensures ReplaceAll(BlockDirective, "Start " + (":::hide inline::: middle\n" + (Text(BlockDirective, block) + tail)))
            == "Start " + (":::hide inline::: middle\n" + (Placeholder(Block, block.attrs) + tail))
  {
    var p := BlockDirective;
    var y := Text(p, block) + tail;
    ReplaceRun(p, "Start ", ":::hide inline::: middle\n" + y);
    BlockPassSkipsInline(y);
    NoColonNoCloser(block.body);
    LoneBlock("", block, tail);
    EmptyUnit(Text(p, block));
    EmptyUnit(Placeholder(Block, block.attrs));
  }

  /** The block pass copies an inline directive with a space after its
      opener, whatever follows it. */
  lemma BlockPassSkipsInline(x: string)
    ensures ReplaceAll(BlockDirective, ":::hide inline::: middle\n" + x)
            == ":::hide inline::: middle\n" + ReplaceAll(BlockDirective, x)
  {
    var p := BlockDirective;
    var s5 := ": middle\n" + x;
    var s4 := ":" + s5;
    var s3 := ":" + s4;
    var s2 := ":hide inline" + s3;
    var s1 := ":" + s2;
    InlinePiecesCannotOpenBlock(x);
    ReplaceSkip(p, ": middle\n", x);
    ReplaceSkip(p, ":", s5);
    ReplaceSkip(p, ":", s4);
    ReplaceSkip(p, ":hide inline", s3);
    ReplaceSkip(p, ":", s2);
    ReplaceSkip(p, ":", s1);
    InlinePieces(x);
    InlinePieces(ReplaceAll(p, x));
  }

  lemma InlinePiecesCannotOpenBlock(x: string)
    ensures !MayOpen(BlockDirective, ": middle\n" + x)
    ensures !MayOpen(BlockDirective, ":" + (": middle\n" + x))
    ensures !MayOpen(BlockDirective, ":" + (":" + (": middle\n" + x)))
    ensures !MayOpen(BlockDirective, ":hide inline" + (":" + (":" + (": middle\n" + x))))
    ensures !MayOpen(BlockDirective, ":" + (":hide inline" + (":" + (":" + (": middle\n" + x)))))
    ensures !MayOpen(BlockDirective, ":" + (":" + (":hide inline" + (":" + (":" + (": middle\n" + x))))))
  {
  }

  lemma InlinePieces(x: string)
    ensures ":" + (":" + (":hide inline" + (":" + (":" + (": middle\n" + x))))) == ":::hide inline::: middle\n" + x
  {
  }

  /** The inline pass of the mixed case. */
  lemma MixedInlinePass(inline: Parts, rest: string)
    requires inline == Parts(None, " ", "inline")
    requires rest == "[hide-block{foo:bar}]" + "\nend"
    ensures ReplaceAll(InlineDirective, "Start " + (":::hide inline::: middle\n" + rest))
            == "Start " + Placeholder(Inline, None) + (" middle\n" + rest)
  {
    var p := InlineDirective;
    MixedInlineText(inline, rest);
    ReplaceInContext(p, "Start ", inline, " middle\n" + rest);
    MixedTail(" middle\n[hide-block{foo", ":bar}]\nend", rest);
    InlinePassOverFooBar(" middle\n[hide-block{foo", ":bar}]\nend");
  }

  lemma MixedInlineText(inline: Parts, rest: string)
    requires inline == Parts(None, " ", "inline")
    ensures "Start " + Text(InlineDirective, inline) + (" middle\n" + rest) == "Start " + (":::hide inline::: middle\n" + rest)
  {
    assert Text(InlineDirective, inline) == ":::hide inline:::" by {
      assert "inline" + ":::" == "inline:::";
    }
    assert ":::hide inline:::" + " middle\n" == ":::hide inline::: middle\n";
  }

  lemma MixedTail(h: string, b: string, rest: string)
    requires h == " middle\n[hide-block{foo" && b == ":bar}]\nend"
    requires rest == "[hide-block{foo:bar}]" + "\nend"
    ensures h + b == " middle\n" + rest
  {
    MixedTailPieces();
  }

  lemma MixedTailPieces()
    ensures " middle\n[hide-block{foo" + ":bar}]\nend" == " middle\n" + ("[hide-block{foo:bar}]" + "\nend")
  {
    assert "[hide-block{foo:bar}]" + "\nend" == "[hide-block{foo:bar}]\nend";
    assert " middle\n" + "[hide-block{foo:bar}]\nend" == " middle\n[hide-block{foo:bar}]\nend";
  }

  lemma InlinePassOverFooBar(h: string, b: string)
    requires h == " middle\n[hide-block{foo" && b == ":bar}]\nend"
    ensures ReplaceAll(InlineDirective, h + b) == h + b
  {
    InlinePassOverColonPiece(b);
    ReplaceRun(InlineDirective, h, b);
  }

  lemma MixedOutput()
    ensures "Start " + "[hide-inline]" + (" middle\n" + ("[hide-block{foo:bar}]" + "\nend"))
            == "Start [hide-inline] middle\n[hide-block{foo:bar}]\nend"
  {
    var a, b, c, d, e := "Start ", "[hide-inline]", " middle\n", "[hide-block{foo:bar}]", "\nend";
    Assoc(a + b, c, d + e);
    Assoc(a + b + c, d, e);
    MixedOutputPieces();
  }

  lemma MixedOutputPieces()
    ensures "Start " + "[hide-inline]" + " middle\n" + "[hide-block{foo:bar}]" + "\nend"
            == "Start [hide-inline] middle\n[hide-block{foo:bar}]\nend"
  {
    MixedOutputHead();
    assert "Start [hide-inline] middle\n" + "[hide-block{foo:bar}]" == "Start [hide-inline] middle\n[hide-block{foo:bar}]";
  }

  lemma MixedOutputHead()
    ensures "Start " + "[hide-inline]" + " middle\n" == "Start [hide-inline] middle\n"
  {
    assert "Start " + "[hide-inline]" == "Start [hide-inline]";
  }

  /** hidden_content_test.go:38-42. */
  lemma NoHiddenContent()
    ensures ProcessHiddenContent("This is just normal content") == "This is just normal content"
  {
    var s := "This is just normal content";
    ReplaceAllWithoutOpenerChar(BlockDirective, s);
    ReplaceAllWithoutOpenerChar(InlineDirective, s);
    ProcessPasses(s);
  }
}

=== FILE: patterns.dfy ===
/** The five regular expressions of server/forked/hidden_content.go, each
    given as a declarative shape (what a match looks like) and a
    hand-written matcher that finds the match the RE2 engine picks at a
    given position. For these patterns RE2's leftmost-first choice is the
    SHORTEST text of the shape starting there: `[^}]*` and `[^"]+` stop at
    the first `}` / `"`, the lazy `.*?` stops at the first closer, and
    letting the greedy `\s+` give characters back never yields a match. */
module Patterns {
  import opened Optional
  import opened Strings

  datatype Pattern =
    | BlockDirective     // (?s):::hide(?:\{([^}]*)\})?\n(.*?)\n:::
    | InlineDirective    // :::hide(?:\{([^}]*)\})?\s+(.*?):::
    | InlinePlaceholder  // \[hide-inline(?:\{[^}]*\})?\]
    | BlockPlaceholder   // \[hide-block(?:\{[^}]*\})?\]
    | ContainsClause     // content\.contains\("([^"]+)"\)

  /** The pieces of one match: the brace capture (group 1 of the directives;
      None when the optional group did not participate), the separator
      between opener and body (`\n` or the `\s+` run), and the body (the
      hidden payload of a directive, the keyword of a contains clause). */
  datatype Parts = Parts(attrs: Option<string>, gap: string, body: string)

  function Lead(p: Pattern): string {
    match p
    case BlockDirective => ":::hide"
    case InlineDirective => ":::hide"
    case InlinePlaceholder => "[hide-inline"
    case BlockPlaceholder => "[hide-block"
    case ContainsClause => "content.contains(\""
  }

  function Tail(p: Pattern): string {
    match p
    case BlockDirective => "\n:::"
    case InlineDirective => ":::"
    case InlinePlaceholder => "]"
    case BlockPlaceholder => "]"
    case ContainsClause => "\")"
  }

  /** The optional `{...}` group. */
  function Group(attrs: Option<string>): string {
    match attrs
    case None => ""
    case Some(a) => "{" + a + "}"
  }

  function Rest(p: Pattern, d: Parts): string {
    d.gap + (d.body + Tail(p))
  }

  /** The full text a match with parts `d` spans. */
  function Text(p: Pattern, d: Parts): string {
    Lead(p) + (Group(d.attrs) + Rest(p, d))
  }

  /** The character classes each pattern imposes on the parts. */
  predicate WellFormed(p: Pattern, d: Parts) {
    && (d.attrs.Some? ==> '}' !in d.attrs.value)
    && match p
       case BlockDirective => d.gap == "\n"
       case InlineDirective =>
         && |d.gap| > 0
         && (forall i :: 0 <= i < |d.gap| ==> IsSpace(d.gap[i]))
         && '\n' !in d.body
       case InlinePlaceholder => d.gap == "" && d.body == ""
       case BlockPlaceholder => d.gap == "" && d.body == ""
       case ContainsClause => d.attrs.None? && d.gap == "" && |d.body| > 0 && '"' !in d.body
  }

  /** `d` describes a text of pattern `p`'s language at the start of `s`. */
  predicate ValidAt(p: Pattern, s: string, d: Parts) {
    WellFormed(p, d) && IsPrefix(Text(p, d), s)
  }

  /** What follows the brace group (or the opener, when there is none). */
  function AfterGroup(p: Pattern, u: string, attrs: Option<string>): (r: Option<Parts>)
    requires p == ContainsClause ==> attrs.None?
    requires attrs.Some? ==> '}' !in attrs.value
    ensures r.Some? ==> r.value.attrs == attrs && WellFormed(p, r.value) && IsPrefix(Rest(p, r.value), u)
    ensures r.Some? && p == InlineDirective && |r.value.body| > 0 ==> !IsSpace(r.value.body[0])
  {
    match p
    case BlockDirective => AfterBlockOpener(u, attrs)
    case InlineDirective => AfterInlineOpener(u, attrs)
    case InlinePlaceholder =>
      if 0 < |u| && u[0] == ']' then Some(Parts(attrs, "", "")) else None
    case BlockPlaceholder =>
      if 0 < |u| && u[0] == ']' then Some(Parts(attrs, "", "")) else None
    case ContainsClause => AfterContainsOpener(u)
  }

  /** `\n(.*?)\n:::` with `.` matching newline: the body ends at the first
      `\n:::` after the opener's newline. */
  function AfterBlockOpener(u: string, attrs: Option<string>): (r: Option<Parts>)
    requires attrs.Some? ==> '}' !in attrs.value
    ensures r.Some? ==> r.value.attrs == attrs && WellFormed(BlockDirective, r.value)
    ensures r.Some? ==> IsPrefix(Rest(BlockDirective, r.value), u)
    ensures r.Some? ==> forall k :: 1 <= k < 1 + |r.value.body| ==> !OccursAt(u, "\n:::", k)
  {
    if 0 < |u| && u[0] == '\n' then
      match FindSub(u, "\n:::", 1)
      case None => None
      case Some(m) =>
        var d := Parts(attrs, "\n", u[1..m]);
        assert u[..|Rest(BlockDirective, d)|] == Rest(BlockDirective, d) by {
          assert u[..m + 4] == u[..1] + u[1..m] + u[m..m + 4];
        }
        Some(d)
    else None
  }

  /** `\s+(.*?):::` with `.` not matching newline. */
  function AfterInlineOpener(u: string, attrs: Option<string>): (r: Option<Parts>)
    requires attrs.Some? ==> '}' !in attrs.value
    ensures r.Some? ==> r.value.attrs == attrs && WellFormed(InlineDirective, r.value)
    ensures r.Some? ==> IsPrefix(Rest(InlineDirective, r.value), u)
    ensures r.Some? && |r.value.body| > 0 ==> !IsSpace(r.value.body[0])
    ensures r.Some? ==> forall k :: |r.value.gap| <= k < |r.value.gap| + |r.value.body| ==> !OccursAt(u, ":::", k)
  {
    var w := SpaceRun(u, 0);
    if w == 0 then None
    else
      match FindSub(u, ":::", w)
      case None => None
      case Some(m) =>
        if '\n' in u[w..m] then None
        else
          InlineSplit(u, attrs, w, m);
          Some(Parts(attrs, u[..w], u[w..m]))
  }

  /** The parts an inline match is cut into: the space run, then the body
      up to the closer. */
  lemma InlineSplit(u: string, attrs: Option<string>, w: nat, m: nat)
    requires attrs.Some? ==> '}' !in attrs.value
    requires 0 < w <= m && OccursAt(u, ":::", m) && '\n' !in u[w..m]
    requires forall k :: 0 <= k < w ==> IsSpace(u[k])
    requires w < |u| ==> !IsSpace(u[w])
    ensures WellFormed(InlineDirective, Parts(attrs, u[..w], u[w..m]))
    ensures IsPrefix(Rest(InlineDirective, Parts(attrs, u[..w], u[w..m])), u)
    ensures m > w ==> !IsSpace(u[w..m][0])
  {
    var d := Parts(attrs, u[..w], u[w..m]);
    assert u[..|Rest(InlineDirective, d)|] == Rest(InlineDirective, d) by {
      assert u[..m + 3] == u[..w] + u[w..m] + u[m..m + 3];
    }
    assert m > w ==> u[w..m][0] == u[w];
  }

  /** `([^"]+)"\)`: the keyword runs up to the first `"`. */
  function AfterContainsOpener(u: string): (r: Option<Parts>)
    ensures r.Some? ==> r.value.attrs.None? && WellFormed(ContainsClause, r.value)
    ensures r.Some? ==> IsPrefix(Rest(ContainsClause, r.value), u)
  {
    match FindChar(u, '"', 0)
    case None => None
    case Some(j) =>
      if 0 < j && j + 1 < |u| && u[j + 1] == ')' then
        var d := Parts(None, "", u[..j]);
        assert '"' !in d.body by {
          forall i | 0 <= i < j ensures u[..j][i] != '"' { }
        }
        assert u[..|Rest(ContainsClause, d)|] == Rest(ContainsClause, d) by {
          assert u[..j + 2] == u[..j] + u[j..j + 2];
        }
        Some(d)
      else None
  }

  /** The optional brace group and what follows it, on the text after the
      opener. `[^}]*` cannot pass a `}`, so the group closes at the first one. */
  function AfterLead(p: Pattern, t: string): (r: Option<Parts>)
    ensures r.Some? ==> WellFormed(p, r.value) && IsPrefix(Group(r.value.attrs) + Rest(p, r.value), t)
    ensures r.Some? && p == InlineDirective && |r.value.body| > 0 ==> !IsSpace(r.value.body[0])
  {
    if p != ContainsClause && 0 < |t| && t[0] == '{' then
      match FindChar(t, '}', 1)
      case None => None
      case Some(j) =>
        var attrs := Some(t[1..j]);
        GroupPrefix(t, j);
        var r := AfterGroup(p, t[j + 1..], attrs);
        if r.None? then None
        else
          PrefixJoin(Group(attrs), Rest(p, r.value), t);
          r
    else
      var r := AfterGroup(p, t, None);
      if r.None? then None
      else
        assert Group(None) + Rest(p, r.value) == Rest(p, r.value);
        r
  }

  /** A brace group closed by the first `}`. */
  lemma GroupPrefix(t: string, j: nat)
    requires 0 < |t| && t[0] == '{' && FindChar(t, '}', 1) == Some(j)
    ensures '}' !in t[1..j]
    ensures IsPrefix(Group(Some(t[1..j])), t) && |Group(Some(t[1..j]))| == j + 1
  {
    forall i | 0 <= i < j - 1 ensures t[1..j][i] != '}' { }
    assert t[..j + 1] == t[..1] + t[1..j] + t[j..j + 1];
  }

  /** The match of pattern `p` that RE2 finds starting exactly at the
      beginning of `s`, if any. */
  function MatchAt(p: Pattern, s: string): (r: Option<Parts>)
    ensures r.Some? ==> ValidAt(p, s, r.value)
    ensures r.Some? && p == InlineDirective && |r.value.body| > 0 ==> !IsSpace(r.value.body[0])
  {
    if !IsPrefix(Lead(p), s) then None
    else
      var r := AfterLead(p, s[|Lead(p)|..]);
      if r.None? then None
      else
        PrefixJoin(Lead(p), Group(r.value.attrs) + Rest(p, r.value), s);
        r
  }

  lemma BlockOpenerShortest(u: string, d: Parts)
    requires WellFormed(BlockDirective, d) && IsPrefix(Rest(BlockDirective, d), u)
    ensures AfterBlockOpener(u, d.attrs).Some?
    ensures |Rest(BlockDirective, AfterBlockOpener(u, d.attrs).value)| <= |Rest(BlockDirective, d)|
  {
    var n := |d.body|;
    assert u[0] == '\n' by { assert u[0] == Rest(BlockDirective, d)[0]; }
    assert OccursAt(u, "\n:::", 1 + n) by {
      assert u[1 + n..1 + n + 4] == Rest(BlockDirective, d)[1 + n..];
    }
  }

  lemma InlineOpenerShortest(u: string, d: Parts)
    requires WellFormed(InlineDirective, d) && IsPrefix(Rest(InlineDirective, d), u)
    ensures AfterInlineOpener(u, d.attrs).Some?
    ensures |Rest(InlineDirective, AfterInlineOpener(u, d.attrs).value)| <= |Rest(InlineDirective, d)|
  {
    InlineRestChars(u, d);
    var w := InlineGapRun(u, d);
    InlineBodyScan(u, d, w);
  }

  /** The greedy `\s+` run covers the gap and stops at the closer at the
      latest. */
  lemma InlineGapRun(u: string, d: Parts) returns (w: nat)
    requires WellFormed(InlineDirective, d)
    requires OccursAt(u, ":::", |d.gap| + |d.body|)
    requires forall i :: 0 <= i < |d.gap| ==> u[i] == d.gap[i]
    ensures w == SpaceRun(u, 0) && |d.gap| <= w <= |d.gap| + |d.body|
  {
    w := SpaceRun(u, 0);
    var g := |d.gap|;
    assert forall i :: 0 <= i < g ==> IsSpace(u[i]);
    assert u[g + |d.body|] == ':' by { assert u[g + |d.body|..g + |d.body| + 3] == ":::"; }
  }

  /** From inside the body, the closer search succeeds no later than the
      text's closer, without crossing a newline. */
  lemma InlineBodyScan(u: string, d: Parts, w: nat)
    requires WellFormed(InlineDirective, d)
    requires OccursAt(u, ":::", |d.gap| + |d.body|)
    requires forall i :: |d.gap| <= i < |d.gap| + |d.body| ==> u[i] == d.body[i - |d.gap|]
    requires |d.gap| <= w <= |d.gap| + |d.body|
    ensures FindSub(u, ":::", w).Some? && FindSub(u, ":::", w).value <= |d.gap| + |d.body|
    ensures '\n' !in u[w..FindSub(u, ":::", w).value]
  {
    var g := |d.gap|;
    var m := FindSub(u, ":::", w).value;
    forall i | w <= i < m ensures u[i] != '\n' {
      assert u[i] == d.body[i - g];
    }
  }

  /** What follows the opener of an inline directive, character by
      character. */
  lemma InlineRestChars(u: string, d: Parts)
    requires IsPrefix(Rest(InlineDirective, d), u)
    ensures forall i :: 0 <= i < |d.gap| ==> u[i] == d.gap[i]
    ensures forall i :: |d.gap| <= i < |d.gap| + |d.body| ==> u[i] == d.body[i - |d.gap|]
    ensures OccursAt(u, ":::", |d.gap| + |d.body|)
  {
    var g, n := |d.gap|, |d.body|;
    var text := Rest(InlineDirective, d);
    forall i | 0 <= i < g ensures u[i] == d.gap[i] { assert u[i] == text[i]; }
    forall i | g <= i < g + n ensures u[i] == d.body[i - g] { assert u[i] == text[i]; }
    assert u[g + n..g + n + 3] == text[g + n..];
  }

  lemma ContainsOpenerShortest(u: string, d: Parts)
    requires WellFormed(ContainsClause, d) && IsPrefix(Rest(ContainsClause, d), u)
    ensures AfterContainsOpener(u).Some?
    ensures |Rest(ContainsClause, AfterContainsOpener(u).value)| <= |Rest(ContainsClause, d)|
  {
    var n := |d.body|;
    var text := Rest(ContainsClause, d);
    assert u[n] == '"' && u[n + 1] == ')' by { assert u[n] == text[n] && u[n + 1] == text[n + 1]; }
    forall i | 0 <= i < n ensures u[i] != '"' {
      assert u[i] == d.body[i] by { assert u[i] == text[i]; }
    }
    assert FindChar(u, '"', 0) == Some(n);
  }

  lemma AfterGroupShortest(p: Pattern, u: string, d: Parts)
    requires WellFormed(p, d) && IsPrefix(Rest(p, d), u)
    ensures AfterGroup(p, u, d.attrs).Some?
    ensures |Rest(p, AfterGroup(p, u, d.attrs).value)| <= |Rest(p, d)|
  {
    match p
    case BlockDirective => BlockOpenerShortest(u, d);
    case InlineDirective => InlineOpenerShortest(u, d);
    case InlinePlaceholder => assert u[0] == Rest(p, d)[0];
    case BlockPlaceholder => assert u[0] == Rest(p, d)[0];
    case ContainsClause => ContainsOpenerShortest(u, d);
  }

  lemma GroupShortest(p: Pattern, t: string, d: Parts)
    requires WellFormed(p, d) && d.attrs.Some?
    requires IsPrefix(Group(d.attrs), t) && IsPrefix(Rest(p, d), t[|Group(d.attrs)|..])
    ensures AfterLead(p, t).Some? && AfterLead(p, t).value.attrs == d.attrs
    ensures |Rest(p, AfterLead(p, t).value)| <= |Rest(p, d)|
  {
    var a := d.attrs.value;
    GroupChars(t, a);
    AfterGroupShortest(p, t[|a| + 2..], d);
  }

  /** A brace group at the start of `t` is found by searching for its `}`. */
  lemma GroupChars(t: string, a: string)
    requires '}' !in a && IsPrefix(Group(Some(a)), t)
    ensures 0 < |t| && t[0] == '{'
    ensures FindChar(t, '}', 1) == Some(|a| + 1) && t[1..|a| + 1] == a
  {
    var g := Group(Some(a));
    assert t[0] == '{' by { assert t[0] == g[0]; }
    assert t[|a| + 1] == '}' by { assert t[|a| + 1] == g[|a| + 1]; }
    forall i | 1 <= i < |a| + 1 ensures t[i] != '}' {
      assert t[i] == a[i - 1] by { assert t[i] == g[i]; }
    }
    assert t[1..|a| + 1] == g[1..|a| + 1] by { assert t[..|g|] == g; }
    assert g[1..|a| + 1] == a;
  }

  lemma NoGroupShortest(p: Pattern, t: string, d: Parts)
    requires WellFormed(p, d) && d.attrs.None? && IsPrefix(Rest(p, d), t)
    ensures AfterLead(p, t).Some? && AfterLead(p, t).value.attrs == d.attrs
    ensures |Rest(p, AfterLead(p, t).value)| <= |Rest(p, d)|
  {
    var rest := Rest(p, d);
    assert 0 < |t| && t[0] == rest[0];
    assert p != ContainsClause ==> t[0] != '{' by {
      if p == InlineDirective { assert rest[0] == d.gap[0]; }
    }
    AfterGroupShortest(p, t, d);
  }

  /** Completeness and priority of the matcher: whenever a text of the
      pattern's shape starts `s`, the matcher finds a match, with the same
      brace capture, and no longer than that text. So the match found is the
      shortest of all the pattern's texts at this position: the lazy body
      stops at the first closer. */
  lemma MatchAtShortest(p: Pattern, s: string, d: Parts)
    requires ValidAt(p, s, d)
    ensures MatchAt(p, s).Some?
    ensures MatchAt(p, s).value.attrs == d.attrs
    ensures |Text(p, MatchAt(p, s).value)| <= |Text(p, d)|
  {
    PrefixSplit(Lead(p), Group(d.attrs) + Rest(p, d), s);
    var t := s[|Lead(p)|..];
    PrefixSplit(Group(d.attrs), Rest(p, d), t);
    if d.attrs.Some? {
      GroupShortest(p, t, d);
    } else {
      NoGroupShortest(p, t, d);
    }
  }

  /** `d` is a shortest text of the pattern's shape at the start of `s`. */
  ghost predicate Shortest(p: Pattern, s: string, d: Parts) {
    forall e :: ValidAt(p, s, e) ==> |Text(p, d)| <= |Text(p, e)|
  }

  /** Character `i` of a match text, by the part it falls in. */
  lemma TextIndex(p: Pattern, s: string, d: Parts)
    requires IsPrefix(Text(p, d), s)
    ensures forall i :: 0 <= i < |d.gap| ==>
              s[|Lead(p)| + |Group(d.attrs)| + i] == d.gap[i]
    ensures forall i :: 0 <= i < |d.body| ==>
              s[|Lead(p)| + |Group(d.attrs)| + |d.gap| + i] == d.body[i]
    ensures forall i :: 0 <= i < |Tail(p)| ==>
              s[|Lead(p)| + |Group(d.attrs)| + |d.gap| + |d.body| + i] == Tail(p)[i]
  {
    var lead, g, tail := Lead(p), Group(d.attrs), Tail(p);
    Assoc(lead, g, d.gap + (d.body + tail));
    Assoc(lead + g, d.gap, d.body + tail);
    Assoc(lead + g + d.gap, d.body, tail);
    EmptyUnit(lead + g + d.gap + d.body + tail);
    PieceIndex(s, lead + g, d.gap, d.body + tail);
    PieceIndex(s, lead + g + d.gap, d.body, tail);
    PieceIndex(s, lead + g + d.gap + d.body, tail, "");
  }

  /** The middle piece of a prefix of `s` sits at the same place in `s`. */
  lemma PieceIndex(s: string, a: string, x: string, b: string)
    requires IsPrefix(a + x + b, s)
    ensures forall i :: 0 <= i < |x| ==> s[|a| + i] == x[i]
  {
    var t := a + x + b;
    forall i | 0 <= i < |x| ensures s[|a| + i] == x[i] {
      assert s[|a| + i] == t[|a| + i];
    }
  }

  /** Where the gap and body of an inline directive lie, there is no `:`. */
  lemma InlineSpanNoColon(s: string, d: Parts, i: int)
    requires ValidAt(InlineDirective, s, d) && ':' !in d.body
    ensures |Lead(InlineDirective)| + |Group(d.attrs)| <= i < |Text(InlineDirective, d)| - 3 ==> s[i] != ':'
  {
    var l := |Lead(InlineDirective)| + |Group(d.attrs)|;
    if l <= i < l + |d.gap| {
      TextIndex(InlineDirective, s, d);
      assert s[i] == d.gap[i - l];
    } else if l + |d.gap| <= i < l + |d.gap| + |d.body| {
      TextIndex(InlineDirective, s, d);
      assert s[i] == d.body[i - l - |d.gap|];
    }
  }

  lemma InlineCloserBound(s: string, d: Parts, e: Parts)
    requires ValidAt(InlineDirective, s, d) && ':' !in d.body
    requires ValidAt(InlineDirective, s, e) && e.attrs == d.attrs
    ensures |Text(InlineDirective, d)| <= |Text(InlineDirective, e)|
  {
    var q := |Text(InlineDirective, e)| - 3;
    var l := |Lead(InlineDirective)| + |Group(e.attrs)|;
    assert q == l + |e.gap| + |e.body|;
    assert s[q] == ':' by {
      TextIndex(InlineDirective, s, e);
      assert s[l + |e.gap| + |e.body| + 0] == Tail(InlineDirective)[0];
    }
    InlineSpanNoColon(s, d, q);
  }

  /** An inline directive whose body holds no `:` ends at the `:::` that
      closes it: no shorter text of the shape starts here. */
  lemma InlineEndsAtCloser(s: string, d: Parts)
    requires ValidAt(InlineDirective, s, d) && ':' !in d.body
    ensures Shortest(InlineDirective, s, d)
  {
    forall e | ValidAt(InlineDirective, s, e)
      ensures |Text(InlineDirective, d)| <= |Text(InlineDirective, e)|
    {
      MatchAtShortest(InlineDirective, s, d);
      MatchAtShortest(InlineDirective, s, e);
      InlineCloserBound(s, d, e);
    }
  }

  /** No `\n` inside the body is followed by `:`. */
  predicate NoCloserInside(body: string) {
    forall k :: 0 <= k < |body| - 1 ==> body[k] != '\n' || body[k + 1] != ':'
  }

  /** Before the closer of a block directive whose body holds no `\n:`,
      no `\n:` starts. */
  lemma BlockSpanNoCloser(s: string, d: Parts, i: int)
    requires ValidAt(BlockDirective, s, d) && NoCloserInside(d.body)
    ensures |Lead(BlockDirective)| + |Group(d.attrs)| + 1 <= i < |Text(BlockDirective, d)| - 4 ==>
              s[i] != '\n' || s[i + 1] != ':'
  {
    var l := |Lead(BlockDirective)| + |Group(d.attrs)| + 1;
    if l <= i < l + |d.body| {
      TextIndex(BlockDirective, s, d);
      assert s[i] == d.body[i - l];
      if i + 1 < l + |d.body| {
        assert s[i + 1] == d.body[i + 1 - l];
      } else {
        assert s[i + 1] == Tail(BlockDirective)[0];
      }
    }
  }

  /** A block directive ends at the first `\n:::` after the opener's
      newline: when the body holds none, no shorter text of the shape starts
      here. */
  lemma BlockEndsAtCloser(s: string, d: Parts)
    requires ValidAt(BlockDirective, s, d) && NoCloserInside(d.body)
    ensures Shortest(BlockDirective, s, d)
  {
    forall e | ValidAt(BlockDirective, s, e)
      ensures |Text(BlockDirective, d)| <= |Text(BlockDirective, e)|
    {
      BlockCloserBound(s, d, e);
    }
  }

  /** Two texts of a pattern at the same position share their brace group. */
  lemma SameGroup(p: Pattern, s: string, d: Parts, e: Parts)
    requires ValidAt(p, s, d) && ValidAt(p, s, e)
    ensures d.attrs == e.attrs
  {
    MatchAtShortest(p, s, d);
    MatchAtShortest(p, s, e);
  }

  lemma BlockCloserBound(s: string, d: Parts, e: Parts)
    requires ValidAt(BlockDirective, s, d) && ValidAt(BlockDirective, s, e) && NoCloserInside(d.body)
    ensures |Text(BlockDirective, d)| <= |Text(BlockDirective, e)|
  {
    var p := BlockDirective;
    SameGroup(p, s, d, e);
    var q := |Text(p, e)| - 4;
    assert s[q] == '\n' && s[q + 1] == ':' by {
      TextIndex(p, s, e);
      assert q == |Lead(p)| + |Group(e.attrs)| + |e.gap| + |e.body|;
      assert Tail(p)[0] == '\n' && Tail(p)[1] == ':';
    }
    BlockSpanNoCloser(s, d, q);
  }

  /** Placeholders and contains clauses have one text of their shape at a
      position at most. */
  lemma ExactEndsAtCloser(p: Pattern, s: string, d: Parts)
    requires p == InlinePlaceholder || p == BlockPlaceholder || p == ContainsClause
    requires ValidAt(p, s, d)
    ensures Shortest(p, s, d)
  {
    forall e | ValidAt(p, s, e) ensures |Text(p, d)| <= |Text(p, e)| {
      MatchAtShortest(p, s, d);
      MatchAtShortest(p, s, e);
      if p == ContainsClause {
        ClauseCloserBound(s, d, e);
      }
    }
  }

  /** A contains clause ends at the first `"` after its opener. */
  lemma ClauseCloserBound(s: string, d: Parts, e: Parts)
    requires ValidAt(ContainsClause, s, d) && ValidAt(ContainsClause, s, e)
    ensures |Text(ContainsClause, d)| <= |Text(ContainsClause, e)|
  {
    var p := ContainsClause;
    TextIndex(p, s, d);
    TextIndex(p, s, e);
    var l := |Lead(p)|;
    assert s[l + |e.body|] == '"';
    assert forall i :: l <= i < l + |d.body| ==> s[i] == d.body[i - l];
  }

  /** The character right after the opener can start what follows it: a
      brace group, or the pattern's separator, closer or keyword. */
  predicate MayOpen(p: Pattern, s: string) {
    && IsPrefix(Lead(p), s)
    && |Lead(p)| < |s|
    && var c := s[|Lead(p)|];
       match p
       case BlockDirective => c == '{' || c == '\n'
       case InlineDirective => c == '{' || IsSpace(c)
       case InlinePlaceholder => c == '{' || c == ']'
       case BlockPlaceholder => c == '{' || c == ']'
       case ContainsClause => c != '"'
  }

  /** A match needs its opener and a fitting next character. */
  lemma MatchNeedsOpener(p: Pattern, s: string)
    ensures MatchAt(p, s).Some? ==> MayOpen(p, s)
  {
    if MatchAt(p, s).Some? {
      var d := MatchAt(p, s).value;
      PrefixSplit(Lead(p), Group(d.attrs) + Rest(p, d), s);
      var t := s[|Lead(p)|..];
      assert t[0] == (Group(d.attrs) + Rest(p, d))[0];
      if d.attrs.None? {
        assert Group(d.attrs) + Rest(p, d) == Rest(p, d);
        if p == InlineDirective {
          assert Rest(p, d)[0] == d.gap[0];
        } else if p == ContainsClause {
          assert Rest(p, d)[0] == d.body[0];
        }
      }
    }
  }

  /** A block directive spans a line break. */
  lemma BlockNeedsNewline(s: string)
    ensures MatchAt(BlockDirective, s).Some? ==> '\n' in s
  {
    if MatchAt(BlockDirective, s).Some? {
      var d := MatchAt(BlockDirective, s).value;
      TextIndex(BlockDirective, s, d);
      assert s[|Lead(BlockDirective)| + |Group(d.attrs)| + 0] == '\n';
    }
  }

  /** The body holds no closer of its pattern: no `:` for an inline
      directive, no `\n:` for a block directive. */
  predicate Closes(p: Pattern, d: Parts) {
    match p
    case BlockDirective => NoCloserInside(d.body)
    case InlineDirective => ':' !in d.body
    case InlinePlaceholder => true
    case BlockPlaceholder => true
    case ContainsClause => true
  }

  /** A text of the shape whose body holds no closer is the one RE2 picks
      where it starts. */
  lemma EndsAtCloser(p: Pattern, s: string, d: Parts)
    requires ValidAt(p, s, d) && Closes(p, d)
    ensures Shortest(p, s, d)
  {
    match p
    case BlockDirective => BlockEndsAtCloser(s, d);
    case InlineDirective => InlineEndsAtCloser(s, d);
    case InlinePlaceholder => ExactEndsAtCloser(p, s, d);
    case BlockPlaceholder => ExactEndsAtCloser(p, s, d);
    case ContainsClause => ExactEndsAtCloser(p, s, d);
  }

  /** A body without `:` holds no closer of a block directive. */
  lemma NoColonNoCloser(body: string)
    requires ':' !in body
    ensures NoCloserInside(body)
  {
    forall k | 0 <= k < |body| - 1 ensures body[k] != '\n' || body[k + 1] != ':' {
      assert body[k + 1] in body;
    }
  }
}

=== FILE: removal_vectors.dfy ===
/** The cases of `TestRemoveHiddenPlaceholders` in
    server/forked/hidden_content_test.go, proved from the lemmas about lone
    placeholders. Inputs are written as the text before, the placeholder
    and the text after. */
module RemovalVectors {
  import opened Optional
  import opened Strings
  import opened Patterns
  import opened HiddenContent

  /** A placeholder as the parts of its pattern: the brace capture only. */
  function Token(attrs: Option<string>): Parts {
    Parts(attrs, "", "")
  }

  lemma BareInlineText()
    ensures Text(InlinePlaceholder, Token(None)) == "[hide-inline]"
  {
  }

  lemma BareBlockText()
    ensures Text(BlockPlaceholder, Token(None)) == "[hide-block]"
  {
  }

  lemma InlineLevelHighText(d: Parts)
    requires d == Token(Some("level:high"))
    ensures Text(InlinePlaceholder, d) == "[hide-inline{level:high}]"
    ensures WellFormed(InlinePlaceholder, d)
  {
    assert "{" + "level:high" + "}" == "{level:high}";
  }

  lemma BlockLevelHighTypeSensitiveText(d: Parts)
    requires d == Token(Some("level:high,type:sensitive"))
    ensures Text(BlockPlaceholder, d) == "[hide-block{level:high,type:sensitive}]"
  {
    assert Text(BlockPlaceholder, d) == "[hide-block" + Group(d.attrs) + "]";
    assert Group(d.attrs) == "{level:high,type:sensitive}" by {
      assert "{" + "level:high,type:sensitive" == "{level:high,type:sensitive";
    }
    BlockLevelHighTypeSensitivePieces();
  }

  lemma BlockLevelHighTypeSensitivePieces()
    ensures "[hide-block" + "{level:high,type:sensitive}" + "]" == "[hide-block{level:high,type:sensitive}]"
  {
    assert "[hide-block" + "{level:high,type:sensitive}" == "[hide-block{level:high,type:sensitive}";
  }

  lemma BlockLevelHighTypeSensitiveFits(d: Parts)
    requires d == Token(Some("level:high,type:sensitive"))
    ensures BracketFree(BlockPlaceholder, d)
  {
  }

  lemma BlockFooBarText(d: Parts)
    requires d == Token(Some("foo:bar"))
    ensures Text(BlockPlaceholder, d) == "[hide-block{foo:bar}]"
    ensures BracketFree(BlockPlaceholder, d)
  {
    assert "{" + "foo:bar" + "}" == "{foo:bar}";
  }

  /** Each removal pass runs once: deleting the inline token in
      `[hide-[hide-inline]inline]` joins the text around it into a new
      `[hide-inline]`, which neither pass removes. */
  lemma SplicedToken(pre: string, post: string)
    requires pre == "[hide-" && post == "inline]"
    ensures RemoveHiddenPlaceholders(pre + Text(InlinePlaceholder, Token(None)) + post) == pre + post
    ensures pre + post == "[hide-inline]"
  {
    var t := Text(InlinePlaceholder, Token(None));
    BareInlineText();
    SplicedOpener(pre, t + post);
    InlinePassSplices(pre, post);
    SplicedJoin(pre, post);
    BlockPassKeepsInlineToken(pre + post);
    RemovalThroughPasses(pre + t + post, pre + post, pre + post);
  }

  /** The inline pass copies a first character that cannot open a token,
      then deletes the bare inline token right after it. */
  lemma InlinePassSplices(pre: string, post: string)
    requires 0 < |pre| && '[' !in pre[1..] && '[' !in post
    requires !MayOpen(InlinePlaceholder, pre + (Text(InlinePlaceholder, Token(None)) + post))
    ensures ReplaceAll(InlinePlaceholder, pre + Text(InlinePlaceholder, Token(None)) + post) == pre + post
  {
    var p, t := InlinePlaceholder, Text(InlinePlaceholder, Token(None));
    Assoc(pre, t, post);
    ReplaceSkip(p, pre, t + post);
    PassDeletes(p, "", Token(None), post);
    EmptyUnit(t);
    EmptyUnit(post);
  }

  lemma SplicedOpener(pre: string, rest: string)
    requires pre == "[hide-" && 0 < |rest| && rest[0] == '['
    ensures 0 < |pre| && '[' !in pre[1..]
    ensures !MayOpen(InlinePlaceholder, pre + rest)
  {
    assert (pre + rest)[6] == '[';
  }

  lemma SplicedJoin(pre: string, post: string)
    requires pre == "[hide-" && post == "inline]"
    ensures pre + post == "[hide-inline]" && '[' !in post
  {
  }

  /** The block pass leaves a bare inline token alone. */
  lemma BlockPassKeepsInlineToken(s: string)
    requires s == "[hide-inline]"
    ensures ReplaceAll(BlockPlaceholder, s) == s
  {
    assert (s + "")[6] == 'i';
    ReplaceSkip(BlockPlaceholder, s, "");
    assert s + "" == s;
  }

  /** hidden_content_test.go:158-162. */
  lemma RemoveInline()
    ensures RemoveHiddenPlaceholders("Public " + "[hide-inline]" + " content") == "Public " + " content"
  {
    BareInlineText();
    RemoveLoneInline("Public ", Token(None), " content");
  }

  /** hidden_content_test.go:163-167. */
  lemma RemoveInlineWithAttributes()
    ensures RemoveHiddenPlaceholders("Public " + "[hide-inline{level:high}]" + " content") == "Public " + " content"
  {
    var d := Token(Some("level:high"));
    InlineLevelHighText(d);
    RemoveLoneInline("Public ", d, " content");
  }

  /** hidden_content_test.go:168-172. */
  lemma RemoveBlock()
    ensures RemoveHiddenPlaceholders("Public " + "[hide-block]" + " content") == "Public " + " content"
  {
    BareBlockText();
    RemoveLoneBlock("Public ", Token(None), " content");
  }

  /** hidden_content_test.go:173-177. */
  lemma RemoveBlockWithAttributes()
    ensures RemoveHiddenPlaceholders("Public " + "[hide-block{level:high,type:sensitive}]" + " content")
            == "Public " + " content"
  {
    var d := Token(Some("level:high,type:sensitive"));
    BlockLevelHighTypeSensitiveText(d);
    BlockLevelHighTypeSensitiveFits(d);
    RemoveLoneBlock("Public ", d, " content");
  }

  /** hidden_content_test.go:178-182. */
  lemma RemoveMultiple()
    ensures RemoveHiddenPlaceholders("Start " + "[hide-inline]" + (" middle " + "[hide-block{foo:bar}]" + " end"))
            == "Start " + (" middle " + " end")
  {
    var b := Token(Some("foo:bar"));
    BareInlineText();
    BlockFooBarText(b);
    RemoveInlineThenBlock("Start ", Token(None), " middle ", b, " end");
  }

  /** hidden_content_test.go:183-187. */
  lemma RemoveNothing()
    ensures RemoveHiddenPlaceholders("Just normal content") == "Just normal content"
  {
    var s := "Just normal content";
    ReplaceAllWithoutOpenerChar(InlinePlaceholder, s);
    ReplaceAllWithoutOpenerChar(BlockPlaceholder, s);
    RemovalIsPasses(s);
  }
}

=== FILE: scanner.dfy ===
/** The iteration Go's `ReplaceAllStringFunc`, `ReplaceAllString` and
    `FindAllStringSubmatch` share: scan left to right; where a match starts,
    take it and resume right after it; elsewhere keep the character. */
module Scanner {
  import opened Optional
  import opened Strings
  import opened Patterns
  import opened Attributes

  /** One step of a scan: a character where no match starts, or a match. */
  datatype Segment = Keep(c: char) | Hit(d: Parts)

  /** The input text a scan step consumed. */
  function Consumed(p: Pattern, seg: Segment): string {
    match seg
    case Keep(c) => [c]
    case Hit(d) => Text(p, d)
  }

  /** The input text a sequence of scan steps consumed, in order. */
  function Raw(p: Pattern, segs: seq<Segment>): string {
    if |segs| == 0 then "" else Consumed(p, segs[0]) + Raw(p, segs[1..])
  }

  /** `segs` cuts `s` the way RE2's leftmost-first, non-overlapping search
      does: a kept character sits where no text of the pattern's shape
      starts, and a hit is the shortest such text where it sits. */
  ghost predicate LeftmostFirst(p: Pattern, s: string, segs: seq<Segment>)
    decreases |segs|
  {
    if |segs| == 0 then |s| == 0
    else match segs[0]
      case Keep(c) =>
        && 0 < |s| && s[0] == c
        && (forall d :: !ValidAt(p, s, d))
        && LeftmostFirst(p, s[1..], segs[1..])
      case Hit(d) =>
        && ValidAt(p, s, d)
        && (forall e :: ValidAt(p, s, e) ==> |Text(p, d)| <= |Text(p, e)|)
        && LeftmostFirst(p, s[|Text(p, d)|..], segs[1..])
  }

  /** The scan itself. The steps consume the whole input, in order. */
  function Scan(p: Pattern, s: string): (r: seq<Segment>)
    decreases |s|
    ensures Raw(p, r) == s
  {
    if |s| == 0 then []
    else
      match MatchAt(p, s)
      case Some(d) =>
        var rest := Scan(p, s[|Text(p, d)|..]);
        RawStep(p, s, Hit(d), rest);
        [Hit(d)] + rest
      case None =>
        var rest := Scan(p, s[1..]);
        RawStep(p, s, Keep(s[0]), rest);
        [Keep(s[0])] + rest
  }

  /** A step that consumes a prefix of `s`, followed by steps that consume
      the remainder, consumes `s`. */
  lemma RawStep(p: Pattern, s: string, seg: Segment, rest: seq<Segment>)
    requires IsPrefix(Consumed(p, seg), s)
    requires Raw(p, rest) == s[|Consumed(p, seg)|..]
    ensures Raw(p, [seg] + rest) == s
  {
    assert ([seg] + rest)[0] == seg && ([seg] + rest)[1..] == rest;
    assert Raw(p, [seg] + rest) == Consumed(p, seg) + Raw(p, rest);
    var n := |Consumed(p, seg)|;
    assert s == s[..n] + s[n..];
  }

  /** The scan is the leftmost-first, non-overlapping search. */
  lemma {:induction false} ScanIsLeftmostFirst(p: Pattern, s: string)
    ensures LeftmostFirst(p, s, Scan(p, s))
    decreases |s|
  {
    if |s| > 0 {
      var r := Scan(p, s);
      match MatchAt(p, s)
      case Some(d) =>
        forall e | ValidAt(p, s, e) ensures |Text(p, d)| <= |Text(p, e)| {
          MatchAtShortest(p, s, e);
        }
        ScanIsLeftmostFirst(p, s[|Text(p, d)|..]);
        assert r[1..] == Scan(p, s[|Text(p, d)|..]);
      case None =>
        forall e ensures !ValidAt(p, s, e) {
          if ValidAt(p, s, e) {
            MatchAtShortest(p, s, e);
          }
        }
        ScanIsLeftmostFirst(p, s[1..]);
        assert r[1..] == Scan(p, s[1..]);
    }
  }

  /** What a match is replaced with: the directive callbacks build a
      placeholder from the brace capture alone; the placeholder removers
      replace with the empty string. */
  function Replacement(p: Pattern, attrs: Option<string>): string
    requires p != ContainsClause
  {
    match p
    case BlockDirective => Placeholder(Block, attrs)
    case InlineDirective => Placeholder(Inline, attrs)
    case InlinePlaceholder => ""
    case BlockPlaceholder => ""
  }

  /** The output of a replacing scan. */
  function Render(p: Pattern, segs: seq<Segment>): string
    requires p != ContainsClause
  {
    if |segs| == 0 then ""
    else
      (match segs[0]
       case Keep(c) => [c]
       case Hit(d) => Replacement(p, d.attrs)) + Render(p, segs[1..])
  }

  /** The keywords a collecting scan yields: the bodies of its matches. */
  function Bodies(segs: seq<Segment>): seq<string> {
    if |segs| == 0 then []
    else (match segs[0]
          case Keep(_) => []
          case Hit(d) => [d.body]) + Bodies(segs[1..])
  }

  lemma ClauseBody(d: Parts)
    requires d.attrs.None? && d.gap == ""
    ensures d.body == Text(ContainsClause, d)[|Lead(ContainsClause)|..|Lead(ContainsClause)| + |d.body|]
  {
    assert Text(ContainsClause, d) == Lead(ContainsClause) + (d.body + Tail(ContainsClause));
  }

  /** Two shortest texts of the same pattern at the same position have the
      same brace capture, and the same body when it is a contains clause. */
  lemma ShortestAgree(p: Pattern, s: string, d: Parts, e: Parts)
    requires ValidAt(p, s, d) && ValidAt(p, s, e)
    requires |Text(p, d)| == |Text(p, e)|
    ensures d.attrs == e.attrs
    ensures p == ContainsClause ==> d.body == e.body
  {
    MatchAtShortest(p, s, d);
    MatchAtShortest(p, s, e);
    if p == ContainsClause {
      assert Text(p, d) == s[..|Text(p, d)|] == Text(p, e);
      ClauseBody(d);
      ClauseBody(e);
    }
  }

  /** The first step of any leftmost-first cut agrees with the scan's. */
  lemma FirstStepAgrees(p: Pattern, s: string, segs: seq<Segment>)
    requires LeftmostFirst(p, s, segs) && |segs| > 0
    ensures |Scan(p, s)| > 0
    ensures segs[0].Keep? ==> Scan(p, s)[0] == segs[0]
    ensures segs[0].Hit? ==> Scan(p, s)[0].Hit?
    ensures segs[0].Hit? ==> |Text(p, segs[0].d)| == |Text(p, Scan(p, s)[0].d)|
    ensures segs[0].Hit? ==> segs[0].d.attrs == Scan(p, s)[0].d.attrs
    ensures segs[0].Hit? && p == ContainsClause ==> segs[0].d.body == Scan(p, s)[0].d.body
  {
    ScanIsLeftmostFirst(p, s);
    var r := Scan(p, s);
    assert |s| > 0;
    match segs[0]
    case Keep(c) =>
      assert MatchAt(p, s).None?;
    case Hit(d) =>
      MatchAtShortest(p, s, d);
      assert r[0] == Hit(MatchAt(p, s).value);
      ShortestAgree(p, s, d, r[0].d);
  }

  /** The leftmost-first cut is unique in what the replacing callers use:
      any cut meeting the declarative description renders as the scan does. */
  lemma {:induction false} LeftmostFirstRender(p: Pattern, s: string, segs: seq<Segment>)
    requires p != ContainsClause
    requires LeftmostFirst(p, s, segs)
    ensures Render(p, segs) == Render(p, Scan(p, s))
    decreases |segs|
  {
    if |segs| > 0 {
      FirstStepAgrees(p, s, segs);
      var n := |Consumed(p, segs[0])|;
      LeftmostFirstRender(p, s[n..], segs[1..]);
      assert Scan(p, s)[1..] == Scan(p, s[n..]);
    }
  }

  /** ... and in what the collecting caller uses: the same bodies. */
  lemma {:induction false} LeftmostFirstBodies(p: Pattern, s: string, segs: seq<Segment>)
    requires p == ContainsClause
    requires LeftmostFirst(p, s, segs)
    ensures Bodies(segs) == Bodies(Scan(p, s))
    decreases |segs|
  {
    if |segs| > 0 {
      FirstStepAgrees(p, s, segs);
      var n := |Consumed(p, segs[0])|;
      LeftmostFirstBodies(p, s[n..], segs[1..]);
      assert Scan(p, s)[1..] == Scan(p, s[n..]);
    }
  }

  /** Where the opener (or the character after it) is missing, the scan
      keeps the character and moves on. */
  lemma ScanKeep(p: Pattern, s: string)
    requires 0 < |s| && !MayOpen(p, s)
    ensures Scan(p, s) == [Keep(s[0])] + Scan(p, s[1..])
  {
    MatchNeedsOpener(p, s);
  }

  /** Where a shortest text of the shape starts, the scan takes a hit with
      its brace capture (and keyword) and resumes right after it. */
  lemma ScanHit(p: Pattern, s: string, d: Parts)
    requires ValidAt(p, s, d) && Shortest(p, s, d)
    ensures |Scan(p, s)| > 0 && Scan(p, s)[0].Hit?
    ensures Scan(p, s)[0].d.attrs == d.attrs
    ensures p == ContainsClause ==> Scan(p, s)[0].d.body == d.body
    ensures Scan(p, s)[1..] == Scan(p, s[|Text(p, d)|..])
  {
    MatchAtShortest(p, s, d);
    var m := MatchAt(p, s).value;
    ShortestAgree(p, s, d, m);
  }
}

=== FILE: search_filter.dfy ===
/** `ProcessContentSearchFilter` of server/forked/hidden_content.go: the
    keywords of every `content.contains("...")` clause of every filter are
    collected into one list, and the memo passes when the list is empty or
    every keyword is a substring of what `removeHiddenPlaceholders` leaves:
    the memo after one deleting pass of each kind, which can still hold a
    placeholder that the deletions joined together. The rest of the filter
    language is ignored, as in the source. */
module SearchFilter {
  import opened Optional
  import opened Strings
  import opened Patterns
  import opened Scanner
  import opened HiddenContent

  /** Every keyword a collecting scan yields is non-empty and quote-free. */
  lemma {:induction false} BodiesShape(s: string)
    ensures forall i :: 0 <= i < |Bodies(Scan(ContainsClause, s))| ==>
              |Bodies(Scan(ContainsClause, s))[i]| > 0 && '"' !in Bodies(Scan(ContainsClause, s))[i]
    decreases |s|
  {
    if |s| > 0 {
      var r := Scan(ContainsClause, s);
      match MatchAt(ContainsClause, s)
      case Some(d) =>
        BodiesShape(s[|Text(ContainsClause, d)|..]);
        assert r[1..] == Scan(ContainsClause, s[|Text(ContainsClause, d)|..]);
      case None =>
        BodiesShape(s[1..]);
        assert r[1..] == Scan(ContainsClause, s[1..]);
    }
  }

  /** The keywords of one filter: group 1 of each match of
      `FindAllStringSubmatch`, in order. */
  function Keywords(filter: string): (r: seq<string>)
    ensures forall i :: 0 <= i < |r| ==> |r[i]| > 0 && '"' !in r[i]
  {
    BodiesShape(filter);
    Bodies(Scan(ContainsClause, filter))
  }

  /** The keywords of all filters, flattened in filter order. */
  function AllKeywords(filters: seq<string>): (r: seq<string>)
    ensures forall i :: 0 <= i < |r| ==> |r[i]| > 0 && '"' !in r[i]
  {
    if |filters| == 0 then []
    else
      var head, rest := Keywords(filters[0]), AllKeywords(filters[1..]);
      ShapeAppend(head, rest);
      head + rest
  }

  /** Joining two lists of non-empty, quote-free keywords gives another. */
  lemma ShapeAppend(a: seq<string>, b: seq<string>)
    requires forall i :: 0 <= i < |a| ==> |a[i]| > 0 && '"' !in a[i]
    requires forall i :: 0 <= i < |b| ==> |b[i]| > 0 && '"' !in b[i]
    ensures forall i :: 0 <= i < |a + b| ==> |(a + b)[i]| > 0 && '"' !in (a + b)[i]
  {
    forall i | 0 <= i < |a + b| ensures |(a + b)[i]| > 0 && '"' !in (a + b)[i] {
      if i < |a| {
        assert (a + b)[i] == a[i];
      } else {
        assert (a + b)[i] == b[i - |a|];
      }
    }
  }

  /** Every keyword is a substring of the searched text. */
  predicate AllFound(visible: string, keywords: seq<string>) {
    forall i :: 0 <= i < |keywords| ==> Contains(visible, keywords[i])
  }

  /** What the function computes: true when no filter carries a keyword,
      otherwise every keyword occurs in the content after one removal pass
      of each kind. */
  predicate Accepts(content: string, filters: seq<string>) {
    var keywords := AllKeywords(filters);
    |keywords| == 0 || AllFound(RemoveHiddenPlaceholders(content), keywords)
  }

  /** The inner collecting loop: append group 1 of each match, in order. */
  method AppendMatches(acc: seq<string>, matches: seq<string>) returns (r: seq<string>)
    ensures r == acc + matches
  {
    r := acc;
    for j := 0 to |matches|
      invariant r == acc + matches[..j]
    {
      r := r + [matches[j]];
      assert matches[..j + 1] == matches[..j] + [matches[j]];
    }
    assert matches[..|matches|] == matches;
  }

  /** The outer collecting loop, over the filters. */
  method CollectKeywords(filters: seq<string>) returns (allKeywords: seq<string>)
    ensures allKeywords == AllKeywords(filters)
  {
    allKeywords := [];
    for i := 0 to |filters|
      invariant allKeywords == AllKeywords(filters[..i])
    {
      var matches := Keywords(filters[i]);
      allKeywords := AppendMatches(allKeywords, matches);
      AllKeywordsStep(filters, i);
    }
    assert filters[..|filters|] == filters;
  }

  /** The checking loop: stop at the first keyword the text lacks. */
  method CheckKeywords(visible: string, keywords: seq<string>) returns (ok: bool)
    ensures ok <==> AllFound(visible, keywords)
    ensures !ok ==> exists k :: k in keywords && !Contains(visible, k)
  {
    for j := 0 to |keywords|
      invariant AllFound(visible, keywords[..j])
    {
      if !Contains(visible, keywords[j]) {
        return false;
      }
      assert keywords[..j + 1] == keywords[..j] + [keywords[j]];
    }
    assert keywords[..|keywords|] == keywords;
    return true;
  }

  /** The function itself: collect, return early on no keywords, strip the
      placeholders, then check the keywords one by one. */
  method ProcessContentSearchFilter(content: string, filters: seq<string>) returns (ok: bool)
    ensures ok <==> Accepts(content, filters)
    ensures |AllKeywords(filters)| == 0 ==> ok
  {
    var allKeywords := CollectKeywords(filters);
    if |allKeywords| == 0 {
      return true;
    }
    var visible := RemoveHiddenPlaceholders(content);
    ok := CheckKeywords(visible, allKeywords);
  }

  lemma AllKeywordsStep(filters: seq<string>, i: nat)
    requires i < |filters|
    ensures AllKeywords(filters[..i + 1]) == AllKeywords(filters[..i]) + Keywords(filters[i])
  {
    assert filters[..i + 1] == filters[..i] + [filters[i]];
    AllKeywordsAppend(filters[..i], [filters[i]]);
    assert [filters[i]][1..] == [];
  }

  /** Flattening distributes over concatenation of filter lists. */
  lemma {:induction false} AllKeywordsAppend(fs: seq<string>, gs: seq<string>)
    ensures AllKeywords(fs + gs) == AllKeywords(fs) + AllKeywords(gs)
  {
    if |fs| == 0 {
      assert fs + gs == gs;
    } else {
      assert (fs + gs)[0] == fs[0];
      assert (fs + gs)[1..] == fs[1..] + gs;
      AllKeywordsAppend(fs[1..], gs);
    }
  }

  /** Filters combine by conjunction: a memo passes a list of filters
      exactly when it passes both halves. */
  lemma AcceptsAppend(content: string, fs: seq<string>, gs: seq<string>)
    ensures Accepts(content, fs + gs) <==> Accepts(content, fs) && Accepts(content, gs)
  {
    AllKeywordsAppend(fs, gs);
    AllFoundAppend(RemoveHiddenPlaceholders(content), AllKeywords(fs), AllKeywords(gs));
  }

  /** Finding every keyword of two lists is finding every keyword of each. */
  lemma AllFoundAppend(visible: string, a: seq<string>, b: seq<string>)
    ensures AllFound(visible, a + b) <==> AllFound(visible, a) && AllFound(visible, b)
  {
    assert forall i :: 0 <= i < |a| ==> (a + b)[i] == a[i];
    assert forall i :: 0 <= i < |b| ==> (a + b)[|a| + i] == b[i];
  }

  /** Adding a filter never turns a rejection into a pass. */
  lemma AppendFilterNeverAccepts(content: string, fs: seq<string>, g: string)
    requires !Accepts(content, fs)
    ensures !Accepts(content, fs + [g])
  {
    AcceptsAppend(content, fs, [g]);
  }

  /** Somewhere in the filter a `content.contains("...")` clause with a
      non-empty, quote-free keyword begins. */
  ghost predicate HasClause(filter: string) {
    exists i, d :: 0 <= i <= |filter| && ValidAt(ContainsClause, filter[i..], d)
  }

  /** A filter yields no keyword exactly when it holds no clause. */
  lemma {:induction false} KeywordsEmptyIff(filter: string)
    ensures |Keywords(filter)| == 0 <==> !HasClause(filter)
    decreases |filter|
  {
    var p := ContainsClause;
    if |filter| == 0 {
      forall d ensures !ValidAt(p, filter[0..], d) {
        assert |Text(p, d)| > 0;
      }
    } else {
      var r := Scan(p, filter);
      match MatchAt(p, filter)
      case Some(d) =>
        assert filter[0..] == filter;
        assert r[0] == Hit(d);
      case None =>
        KeywordsEmptyIff(filter[1..]);
        assert r[1..] == Scan(p, filter[1..]);
        assert Keywords(filter) == Keywords(filter[1..]);
        forall d ensures !ValidAt(p, filter, d) {
          if ValidAt(p, filter, d) {
            MatchAtShortest(p, filter, d);
          }
        }
        ClauseShift(filter);
    }
  }

  lemma ClauseShift(filter: string)
    requires |filter| > 0
    requires forall d :: !ValidAt(ContainsClause, filter, d)
    ensures HasClause(filter) <==> HasClause(filter[1..])
  {
    if HasClause(filter) {
      var i, d :| 0 <= i <= |filter| && ValidAt(ContainsClause, filter[i..], d);
      assert i != 0 by { assert filter[0..] == filter; }
      assert filter[1..][i - 1..] == filter[i..];
    }
    if HasClause(filter[1..]) {
      var i, d :| 0 <= i <= |filter[1..]| && ValidAt(ContainsClause, filter[1..][i..], d);
      assert filter[1..][i..] == filter[i + 1..];
    }
  }

  /** No filter carries a keyword exactly when none holds a clause; then
      every memo passes. */
  lemma {:induction false} NoClauseIff(content: string, filters: seq<string>)
    ensures |AllKeywords(filters)| == 0 <==> forall j :: 0 <= j < |filters| ==> !HasClause(filters[j])
    ensures (forall j :: 0 <= j < |filters| ==> !HasClause(filters[j])) ==> Accepts(content, filters)
  {
    if |filters| > 0 {
      NoClauseIff(content, filters[1..]);
      KeywordsEmptyIff(filters[0]);
      assert forall j :: 1 <= j < |filters| ==> filters[j] == filters[1..][j - 1];
    }
  }

  /** The keywords are the bodies of any leftmost-first cut of the filter:
      the collecting scan is the one RE2's `FindAllStringSubmatch` does. */
  lemma KeywordsCharacterized(filter: string, segs: seq<Segment>)
    requires LeftmostFirst(ContainsClause, filter, segs)
    ensures Keywords(filter) == Bodies(segs)
  {
    LeftmostFirstBodies(ContainsClause, filter, segs);
  }

  /** The clause `content.contains("kw")`. */
  function Clause(keyword: string): string {
    Text(ContainsClause, Parts(None, "", keyword))
  }

  /** No keyword comes from a run lacking `c`, the opener's first letter. */
  lemma {:induction false} KeywordsRun(a: string, b: string)
    requires Lead(ContainsClause)[0] !in a
    ensures Keywords(a + b) == Keywords(b)
    decreases |a|
  {
    if |a| > 0 {
      var s := a + b;
      SkipSplit(a, b, "");
      ScanKeep(ContainsClause, s);
      KeywordsRun(a[1..], b);
    } else {
      assert a + b == b;
    }
  }

  /** ... nor from a piece that cannot open a clause at its first character
      and lacks `c` afterwards. */
  lemma KeywordsSkip(a: string, b: string)
    requires 0 < |a| && !MayOpen(ContainsClause, a + b) && Lead(ContainsClause)[0] !in a[1..]
    ensures Keywords(a + b) == Keywords(b)
  {
    SkipSplit(a, b, "");
    ScanKeep(ContainsClause, a + b);
    KeywordsRun(a[1..], b);
  }

  /** A clause in context yields its keyword, then the keywords after it. */
  lemma KeywordsInContext(pre: string, keyword: string, post: string)
    requires Lead(ContainsClause)[0] !in pre
    requires 0 < |keyword| && '"' !in keyword
    ensures Keywords(pre + Clause(keyword) + post) == [keyword] + Keywords(post)
  {
    var p := ContainsClause;
    var d := Parts(None, "", keyword);
    var s := Clause(keyword) + post;
    assert pre + Clause(keyword) + post == pre + s;
    KeywordsRun(pre, s);
    assert ValidAt(p, s, d);
    ExactEndsAtCloser(p, s, d);
    ScanHit(p, s, d);
    assert s[|Text(p, d)|..] == post;
  }

  /** The clause, written out. */
  lemma ClauseText(keyword: string)
    ensures Clause(keyword) == "content.contains(\"" + keyword + "\")"
  {
  }

  /** A filter holding one clause, after text lacking `c`, yields exactly
      its keyword. */
  lemma LoneClause(pre: string, keyword: string)
    requires Lead(ContainsClause)[0] !in pre
    requires 0 < |keyword| && '"' !in keyword
    ensures Keywords(pre + Clause(keyword)) == [keyword]
  {
    KeywordsInContext(pre, keyword, "");
    assert pre + Clause(keyword) + "" == pre + Clause(keyword);
    assert Keywords("") == [];
  }

  /** Two clauses joined by `&&` yield both keywords, in order. */
  lemma TwoClauses(k1: string, k2: string)
    requires 0 < |k1| && '"' !in k1 && 0 < |k2| && '"' !in k2
    ensures Keywords(Clause(k1) + " && " + Clause(k2)) == [k1, k2]
  {
    var first, second := Clause(k1), Clause(k2);
    KeywordsInContext("", k1, " && " + second);
    LoneClause(" && ", k2);
    EmptyUnit(first);
    Assoc(first, " && ", second);
  }

  /** The keywords of one and of two filters. */
  lemma AllKeywordsOne(f: string)
    ensures AllKeywords([f]) == Keywords(f)
  {
    assert [f][1..] == [];
  }

  lemma AllKeywordsTwo(f: string, g: string)
    ensures AllKeywords([f, g]) == Keywords(f) + Keywords(g)
  {
    assert [f, g][1..] == [g];
    AllKeywordsOne(g);
  }
}

=== FILE: search_vectors.dfy ===
/** The cases of `TestProcessContentSearchFilter` in
    server/forked/hidden_content_test.go, stated through `Accepts`, which the
    filter function is proved to compute. Each filter is first shown to be
    its clauses written out, then its keywords are read off with the lemmas
    about clauses in context. */
module SearchFilterVectors {
  import opened Optional
  import opened Strings
  import opened Patterns
  import opened HiddenContent
  import opened SearchFilter
  import opened RemovalVectors

  // Filters

  /** `creator_id == 1 && ` cannot open a clause, so only the clause after it
      yields a keyword. */
  lemma CreatorThenClause(keyword: string)
    requires 0 < |keyword| && '"' !in keyword
    ensures Keywords("creator_id == 1 && " + Clause(keyword)) == [keyword]
  {
    var a, b := "creator_id == 1 && ", Clause(keyword);
    CreatorPrefix(a);
    ClauseSkip(a, b);
    OneClause(keyword);
  }

  lemma CreatorPrefix(a: string)
    requires a == "creator_id == 1 && "
    ensures 1 < |a| && a[1] != Lead(ContainsClause)[1] && Lead(ContainsClause)[0] !in a[1..]
  {
    assert a[1..] == "reator_id == 1 && ";
  }

  /** Text whose second character breaks the opener, and that lacks `c`
      afterwards, yields no keyword. */
  lemma ClauseSkip(a: string, b: string)
    requires 1 < |a| && a[1] != Lead(ContainsClause)[1] && Lead(ContainsClause)[0] !in a[1..]
    ensures Keywords(a + b) == Keywords(b)
  {
    assert (a + b)[1] == a[1];
    KeywordsSkip(a, b);
  }

  /** A clause alone yields its keyword. */
  lemma OneClause(keyword: string)
    requires 0 < |keyword| && '"' !in keyword
    ensures Keywords(Clause(keyword)) == [keyword]
  {
    LoneClause("", keyword);
    assert "" + Clause(keyword) == Clause(keyword);
  }

  /** A filter starting `cr` with no further `c` carries no clause. */
  lemma NoClauseFilter(a: string, b: string, c: string, d: string)
    requires 0 < |a| && a[0] == 'r'
    requires Lead(ContainsClause)[0] !in a && Lead(ContainsClause)[0] !in b
    requires Lead(ContainsClause)[0] !in c && Lead(ContainsClause)[0] !in d
    ensures Keywords("c" + a + b + c + d) == []
  {
    var f := "c" + a + b + c + d;
    assert f + "" == f && f[1..] == a + b + c + d && f[1] == 'r';
    KeywordsSkip(f, "");
    assert Keywords("") == [];
  }

  lemma CreatorPublicText()
    ensures "creator_id == 1 && content.contains(\"public\")" == "creator_id == 1 && " + Clause("public")
  {
    ClauseText("public");
    Assoc("creator_id == 1 && ", "content.contains(\"" + "public", "\")");
    Assoc("creator_id == 1 && ", "content.contains(\"", "public");
    assert "creator_id == 1 && " + "content.contains(\"" == "creator_id == 1 && content.contains(\"";
    assert "creator_id == 1 && content.contains(\"" + "public" == "creator_id == 1 && content.contains(\"public";
  }

  lemma CreatorPublicKeywords(f: string)
    requires f == "creator_id == 1 && content.contains(\"public\")"
    ensures Keywords(f) == ["public"]
  {
    CreatorPublicText();
    CreatorThenClause("public");
  }

  lemma HideInlineText()
    ensures "content.contains(\"hide-inline\")" == Clause("hide-inline")
  {
    ClauseText("hide-inline");
    assert "content.contains(\"" + "hide-inline" == "content.contains(\"hide-inline";
  }

  lemma HideInlineKeywords(f: string)
    requires f == "content.contains(\"hide-inline\")"
    ensures Keywords(f) == ["hide-inline"]
  {
    HideInlineText();
    OneClause("hide-inline");
  }

  lemma HideBlockText()
    ensures "content.contains(\"hide-block\")" == Clause("hide-block")
  {
    ClauseText("hide-block");
    assert "content.contains(\"" + "hide-block" == "content.contains(\"hide-block";
  }

  lemma HideBlockKeywords(f: string)
    requires f == "content.contains(\"hide-block\")"
    ensures Keywords(f) == ["hide-block"]
  {
    HideBlockText();
    OneClause("hide-block");
  }

  lemma PublicText()
    ensures "content.contains(\"Public\")" == Clause("Public")
  {
    ClauseText("Public");
    assert "content.contains(\"" + "Public" == "content.contains(\"Public";
  }

  lemma PublicKeywords(f: string)
    requires f == "content.contains(\"Public\")"
    ensures Keywords(f) == ["Public"]
  {
    PublicText();
    OneClause("Public");
  }

  lemma ExampleText()
    ensures "content.contains(\"example\")" == Clause("example")
  {
    ClauseText("example");
    assert "content.contains(\"" + "example" == "content.contains(\"example";
  }

  lemma ExampleKeywords(f: string)
    requires f == "content.contains(\"example\")"
    ensures Keywords(f) == ["example"]
  {
    ExampleText();
    OneClause("example");
  }

  lemma WorldText()
    ensures "content.contains(\"world\")" == Clause("world")
  {
    ClauseText("world");
    assert "content.contains(\"" + "world" == "content.contains(\"world";
  }

  lemma WorldKeywords(f: string)
    requires f == "content.contains(\"world\")"
    ensures Keywords(f) == ["world"]
  {
    WorldText();
    OneClause("world");
  }

  lemma HelloAndText(second: string)
    ensures "content.contains(\"Hello\") && " + Clause(second)
            == Clause("Hello") + " && " + Clause(second)
  {
    ClauseText("Hello");
    assert "content.contains(\"" + "Hello" == "content.contains(\"Hello";
    assert "content.contains(\"Hello" + "\")" == "content.contains(\"Hello\")";
    assert "content.contains(\"Hello\")" + " && " == "content.contains(\"Hello\") && ";
  }

  lemma HelloWorldText()
    ensures "content.contains(\"Hello\") && content.contains(\"world\")"
            == "content.contains(\"Hello\") && " + Clause("world")
  {
    ClauseText("world");
    Assoc("content.contains(\"Hello\") && ", "content.contains(\"" + "world", "\")");
    Assoc("content.contains(\"Hello\") && ", "content.contains(\"", "world");
    assert "content.contains(\"Hello\") && " + "content.contains(\""
           == "content.contains(\"Hello\") && content.contains(\"";
    assert "content.contains(\"Hello\") && content.contains(\"" + "world"
           == "content.contains(\"Hello\") && content.contains(\"world";
  }

  lemma HelloWorldKeywords(f: string)
    requires f == "content.contains(\"Hello\") && content.contains(\"world\")"
    ensures Keywords(f) == ["Hello", "world"]
  {
    HelloWorldText();
    HelloAndText("world");
    TwoClauses("Hello", "world");
  }

  lemma HelloUniverseText()
    ensures "content.contains(\"Hello\") && content.contains(\"universe\")"
            == "content.contains(\"Hello\") && " + Clause("universe")
  {
    ClauseText("universe");
    Assoc("content.contains(\"Hello\") && ", "content.contains(\"" + "universe", "\")");
    Assoc("content.contains(\"Hello\") && ", "content.contains(\"", "universe");
    assert "content.contains(\"Hello\") && " + "content.contains(\""
           == "content.contains(\"Hello\") && content.contains(\"";
    assert "content.contains(\"Hello\") && content.contains(\"" + "universe"
           == "content.contains(\"Hello\") && content.contains(\"universe";
  }

  lemma HelloUniverseKeywords(f: string)
    requires f == "content.contains(\"Hello\") && content.contains(\"universe\")"
    ensures Keywords(f) == ["Hello", "universe"]
  {
    HelloUniverseText();
    HelloAndText("universe");
    TwoClauses("Hello", "universe");
  }

  lemma CreatorHelloText()
    ensures "creator_id == 1 && content.contains(\"Hello\")" == "creator_id == 1 && " + Clause("Hello")
  {
    ClauseText("Hello");
    Assoc("creator_id == 1 && ", "content.contains(\"" + "Hello", "\")");
    Assoc("creator_id == 1 && ", "content.contains(\"", "Hello");
    assert "creator_id == 1 && " + "content.contains(\"" == "creator_id == 1 && content.contains(\"";
    assert "creator_id == 1 && content.contains(\"" + "Hello" == "creator_id == 1 && content.contains(\"Hello";
  }

  lemma CreatorHelloKeywords(f: string)
    requires f == "creator_id == 1 && content.contains(\"Hello\")"
    ensures Keywords(f) == ["Hello"]
  {
    CreatorHelloText();
    CreatorThenClause("Hello");
  }

  lemma CreatorPublicCapitalText()
    ensures "creator_id == 1 && content.contains(\"Public\")" == "creator_id == 1 && " + Clause("Public")
  {
    ClauseText("Public");
    Assoc("creator_id == 1 && ", "content.contains(\"" + "Public", "\")");
    Assoc("creator_id == 1 && ", "content.contains(\"", "Public");
    assert "creator_id == 1 && " + "content.contains(\"" == "creator_id == 1 && content.contains(\"";
    assert "creator_id == 1 && content.contains(\"" + "Public" == "creator_id == 1 && content.contains(\"Public";
  }

  lemma CreatorPublicCapitalKeywords(f: string)
    requires f == "creator_id == 1 && content.contains(\"Public\")"
    ensures Keywords(f) == ["Public"]
  {
    CreatorPublicCapitalText();
    CreatorThenClause("Public");
  }

  lemma VisibilityPieces()
    ensures "creator_id == 1 || visibility in [\"PUBLIC\", \"PROTECTED\"]"
            == "c" + "reator_id == 1 " + "|| visibility in " + "[\"PUBLIC\", " + "\"PROTECTED\"]"
  {
    assert "c" + "reator_id == 1 " == "creator_id == 1 ";
    assert "creator_id == 1 " + "|| visibility in " == "creator_id == 1 || visibility in ";
    assert "creator_id == 1 || visibility in " + "[\"PUBLIC\", " == "creator_id == 1 || visibility in [\"PUBLIC\", ";
  }

  lemma VisibilityKeywords(f: string)
    requires f == "creator_id == 1 || visibility in [\"PUBLIC\", \"PROTECTED\"]"
    ensures Keywords(f) == []
  {
    VisibilityPieces();
    NoClauseFilter("reator_id == 1 ", "|| visibility in ", "[\"PUBLIC\", ", "\"PROTECTED\"]");
  }

  lemma CreatorOnlyKeywords(f: string)
    requires f == "creator_id == 1"
    ensures Keywords(f) == []
  {
    assert "c" + "reator_id == 1" + "" + "" + "" == "creator_id == 1";
    NoClauseFilter("reator_id == 1", "", "", "");
  }

  // Contents

  /** Text without `[` is left as it is. */
  lemma Visible(content: string)
    requires '[' !in content
    ensures RemoveHiddenPlaceholders(content) == content
  {
    MissingChar(content, "[hide-", '[');
  }

  /** A keyword placed between two texts is contained. */
  lemma FoundAfter(a: string, keyword: string, b: string)
    ensures Contains(a + keyword + b, keyword)
  {
    assert (a + keyword + b)[|a|..|a| + |keyword|] == keyword;
    assert OccursAt(a + keyword + b, keyword, |a|);
  }

  /** Appending text keeps an occurrence. */
  lemma FoundBefore(s: string, keyword: string, b: string)
    requires Contains(s, keyword)
    ensures Contains(s + b, keyword)
  {
    var i :| 0 <= i <= |s| - |keyword| && OccursAt(s, keyword, i);
    assert (s + b)[i..i + |keyword|] == s[i..i + |keyword|];
    assert OccursAt(s + b, keyword, i);
  }

  /** Two pieces free of `[` are left as they are. */
  lemma VisibleParts(a: string, b: string)
    requires '[' !in a && '[' !in b
    ensures RemoveHiddenPlaceholders(a + b) == a + b
  {
    Visible(a + b);
  }

  /** Two pieces lacking a character of the keyword do not contain it. */
  lemma Absent(s: string, a: string, b: string, keyword: string, c: char)
    requires s == a + b && c in keyword && c !in a && c !in b
    ensures !Contains(s, keyword)
  {
    MissingChar(s, keyword, c);
  }

  /** What is left around a placeholder lacks the placeholders' `-`, and a
      private message lacks the `u` of `public`. */
  lemma MessageLacks(v: string, keyword: string)
    requires v == "This is " + " message" && '-' in keyword
    ensures !Contains(v, keyword)
  {
    Absent(v, "This is ", " message", keyword, '-');
  }

  lemma ContentLacks(v: string, keyword: string)
    requires v == "This is " + " content" && '-' in keyword
    ensures !Contains(v, keyword)
  {
    Absent(v, "This is ", " content", keyword, '-');
  }

  lemma PrivateLacks(v: string, keyword: string)
    requires v == "This is a private message" && 'u' in keyword
    ensures !Contains(v, keyword)
  {
    PrivateMessagePieces();
    Absent(v, "This is a ", "private message", keyword, 'u');
  }

  lemma PublicMessagePieces()
    ensures "This is a public message" == "This is a " + "public" + " message"
  {
    assert "This is a " + "public" == "This is a public";
  }

  lemma PublicMessage(s: string)
    requires s == "This is a public message"
    ensures RemoveHiddenPlaceholders(s) == s && Contains(s, "public")
  {
    PublicMessagePieces();
    VisibleParts("This is a " + "public", " message");
    FoundAfter("This is a ", "public", " message");
  }

  lemma PrivateMessagePieces()
    ensures "This is a private message" == "This is a " + "private message"
  {
  }

  lemma PrivateVisible(s: string)
    requires s == "This is a private message"
    ensures RemoveHiddenPlaceholders(s) == s
  {
    PrivateMessagePieces();
    VisibleParts("This is a ", "private message");
  }

  lemma PrivateMessage(s: string)
    requires s == "This is a private message"
    ensures RemoveHiddenPlaceholders(s) == s && !Contains(s, "public")
  {
    PrivateVisible(s);
    PrivateLacks(s, "public");
  }

  lemma InlineMessagePieces()
    ensures "This is [hide-inline] message" == "This is " + "[hide-inline]" + " message"
  {
    assert "This is " + "[hide-inline]" == "This is [hide-inline]";
  }

  lemma InlineMessageVisible(s: string)
    requires s == "This is [hide-inline] message"
    ensures RemoveHiddenPlaceholders(s) == "This is " + " message"
  {
    InlineMessagePieces();
    BareInlineText();
    RemoveLoneInline("This is ", Token(None), " message");
  }

  lemma InlineMessage(s: string)
    requires s == "This is [hide-inline] message"
    ensures !Contains(RemoveHiddenPlaceholders(s), "hide-inline")
  {
    InlineMessageVisible(s);
    MessageLacks(RemoveHiddenPlaceholders(s), "hide-inline");
  }

  lemma LevelHighMessagePieces()
    ensures "This is [hide-inline{level:high}] message" == "This is " + "[hide-inline{level:high}]" + " message"
  {
    assert "This is " + "[hide-inline{level:high}]" == "This is [hide-inline{level:high}]";
  }

  lemma LevelHighMessageVisible(s: string)
    requires s == "This is [hide-inline{level:high}] message"
    ensures RemoveHiddenPlaceholders(s) == "This is " + " message"
  {
    var d := Token(Some("level:high"));
    LevelHighMessagePieces();
    InlineLevelHighText(d);
    RemoveLoneInline("This is ", d, " message");
  }

  lemma LevelHighMessage(s: string)
    requires s == "This is [hide-inline{level:high}] message"
    ensures !Contains(RemoveHiddenPlaceholders(s), "hide-inline")
  {
    LevelHighMessageVisible(s);
    MessageLacks(RemoveHiddenPlaceholders(s), "hide-inline");
  }

  lemma PublicInfoPieces()
    ensures "Public info [hide-inline{level:high}] more public info"
            == "Public info " + "[hide-inline{level:high}]" + " more public info"
  {
    assert "Public info " + "[hide-inline{level:high}]" == "Public info [hide-inline{level:high}]";
  }

  lemma PublicInfoVisible(s: string)
    requires s == "Public info [hide-inline{level:high}] more public info"
    ensures RemoveHiddenPlaceholders(s) == "Public info " + " more public info"
  {
    var d := Token(Some("level:high"));
    PublicInfoPieces();
    InlineLevelHighText(d);
    RemoveLoneInline("Public info ", d, " more public info");
  }

  lemma PublicInfoAround(s: string)
    requires s == "Public info [hide-inline{level:high}] more public info"
    ensures Contains(RemoveHiddenPlaceholders(s), "Public")
  {
    PublicInfoVisible(s);
    PublicInfo("Public info ", " ");
    FoundBefore("Public info ", "Public", " more public info");
  }

  /** `Public info`, with any ending free of `[`. */
  lemma PublicInfo(s: string, ending: string)
    requires s == "Public info" + ending && '[' !in ending
    ensures RemoveHiddenPlaceholders(s) == s && Contains(s, "Public")
  {
    assert "Public" + " info" == "Public info";
    assert s == "" + "Public" + (" info" + ending);
    Visible(s);
    FoundAfter("", "Public", " info" + ending);
  }

  lemma FooBarContentPieces()
    ensures "This is [hide-block{foo:bar}] content" == "This is " + "[hide-block{foo:bar}]" + " content"
  {
    assert "This is " + "[hide-block{foo:bar}]" == "This is [hide-block{foo:bar}]";
  }

  lemma FooBarContentVisible(s: string)
    requires s == "This is [hide-block{foo:bar}] content"
    ensures RemoveHiddenPlaceholders(s) == "This is " + " content"
  {
    var d := Token(Some("foo:bar"));
    FooBarContentPieces();
    BlockFooBarText(d);
    RemoveLoneBlock("This is ", d, " content");
  }

  lemma FooBarContent(s: string)
    requires s == "This is [hide-block{foo:bar}] content"
    ensures !Contains(RemoveHiddenPlaceholders(s), "hide-block")
  {
    FooBarContentVisible(s);
    ContentLacks(RemoveHiddenPlaceholders(s), "hide-block");
  }

  /** `Hello world`, with any ending free of `[`. */
  lemma HelloWorld(s: string, ending: string)
    requires s == "Hello world" + ending && '[' !in ending
    ensures RemoveHiddenPlaceholders(s) == s && Contains(s, "Hello") && Contains(s, "world")
  {
    assert "Hello" + " world" == "Hello world";
    assert "Hello " + "world" == "Hello world";
    assert s == "" + "Hello" + (" world" + ending);
    assert s == "Hello " + "world" + ending;
    Visible(s);
    FoundAfter("", "Hello", " world" + ending);
    FoundAfter("Hello ", "world", ending);
  }

  /** The three `Hello world` memos of the tests. */
  lemma HelloWorldMemos(s: string)
    requires s == "Hello world" || s == "Hello world example" || s == "Hello world example test"
    ensures RemoveHiddenPlaceholders(s) == s && Contains(s, "Hello") && Contains(s, "world")
  {
    if s == "Hello world" {
      HelloWorld(s, "");
    } else if s == "Hello world example" {
      HelloWorld(s, " example");
    } else {
      assert "Hello world" + " example test" == "Hello world example test";
      HelloWorld(s, " example test");
    }
  }

  lemma PublicInfoAlone(s: string)
    requires s == "Public info"
    ensures RemoveHiddenPlaceholders(s) == s && Contains(s, "Public")
  {
    PublicInfo(s, "");
  }

  lemma HelloWorldOnly(s: string)
    requires s == "Hello world"
    ensures !Contains(s, "universe")
  {
    MissingChar(s, "universe", 'u');
  }

  lemma Example(s: string)
    requires s == "Hello world example test"
    ensures Contains(s, "example")
  {
    assert "Hello world " + "example" == "Hello world example";
    assert s == "Hello world " + "example" + " test";
    FoundAfter("Hello world ", "example", " test");
  }

  /** The judgement follows from the text removal leaves and the keywords. */
  lemma AcceptedWhen(content: string, filters: seq<string>, visible: string)
    requires RemoveHiddenPlaceholders(content) == visible
    requires AllFound(visible, AllKeywords(filters))
    ensures Accepts(content, filters)
  {
  }

  lemma FoundThree(visible: string, a: string, b: string, c: string)
    requires Contains(visible, a) && Contains(visible, b) && Contains(visible, c)
    ensures AllFound(visible, [a, b] + [c])
  {
    assert [a, b] + [c] == [a, b, c];
  }

  lemma RejectedWhen(content: string, filters: seq<string>, keyword: string)
    requires keyword in AllKeywords(filters) && !Contains(RemoveHiddenPlaceholders(content), keyword)
    ensures !Accepts(content, filters)
  {
  }

  // The cases

  /** hidden_content_test.go:62-67. */
  lemma KeywordFoundInVisibleContent(content: string, filters: seq<string>)
    requires content == "This is a public message"
    requires filters == ["creator_id == 1 && content.contains(\"public\")"]
    ensures Accepts(content, filters)
  {
    CreatorPublicKeywords(filters[0]);
    AllKeywordsOne(filters[0]);
    PublicMessage(content);
    AcceptedWhen(content, filters, content);
  }

  /** hidden_content_test.go:68-73. */
  lemma KeywordNotFound(content: string, filters: seq<string>)
    requires content == "This is a private message"
    requires filters == ["creator_id == 1 && content.contains(\"public\")"]
    ensures !Accepts(content, filters)
  {
    CreatorPublicKeywords(filters[0]);
    AllKeywordsOne(filters[0]);
    PrivateMessage(content);
    RejectedWhen(content, filters, "public");
  }

  /** hidden_content_test.go:74-79. */
  lemma KeywordInPlaceholder(content: string, filters: seq<string>)
    requires content == "This is [hide-inline] message"
    requires filters == ["content.contains(\"hide-inline\")"]
    ensures !Accepts(content, filters)
  {
    HideInlineKeywords(filters[0]);
    AllKeywordsOne(filters[0]);
    InlineMessage(content);
    RejectedWhen(content, filters, "hide-inline");
  }

  /** hidden_content_test.go:80-85. */
  lemma KeywordInPlaceholderWithAttributes(content: string, filters: seq<string>)
    requires content == "This is [hide-inline{level:high}] message"
    requires filters == ["content.contains(\"hide-inline\")"]
    ensures !Accepts(content, filters)
  {
    HideInlineKeywords(filters[0]);
    AllKeywordsOne(filters[0]);
    LevelHighMessage(content);
    RejectedWhen(content, filters, "hide-inline");
  }

  /** hidden_content_test.go:86-91. */
  lemma KeywordBesidePlaceholder(content: string, filters: seq<string>)
    requires content == "Public info [hide-inline{level:high}] more public info"
    requires filters == ["content.contains(\"Public\")"]
    ensures Accepts(content, filters)
  {
    PublicKeywords(filters[0]);
    AllKeywordsOne(filters[0]);
    PublicInfoAround(content);
    AcceptedWhen(content, filters, RemoveHiddenPlaceholders(content));
  }

  /** hidden_content_test.go:92-97. */
  lemma AllKeywordsFound(content: string, filters: seq<string>)
    requires content == "Hello world"
    requires filters == ["content.contains(\"Hello\") && content.contains(\"world\")"]
    ensures Accepts(content, filters)
  {
    HelloWorldKeywords(filters[0]);
    AllKeywordsOne(filters[0]);
    HelloWorldMemos(content);
    AcceptedWhen(content, filters, content);
  }

  /** hidden_content_test.go:98-103. */
  lemma OneKeywordMissing(content: string, filters: seq<string>)
    requires content == "Hello world"
    requires filters == ["content.contains(\"Hello\") && content.contains(\"universe\")"]
    ensures !Accepts(content, filters)
  {
    HelloUniverseKeywords(filters[0]);
    AllKeywordsOne(filters[0]);
    HelloWorldMemos(content);
    HelloWorldOnly(content);
    RejectedWhen(content, filters, "universe");
  }

  /** hidden_content_test.go:104-109. */
  lemma KeywordsAcrossFilters(content: string, filters: seq<string>)
    requires content == "Hello world example"
    requires filters == ["creator_id == 1 && content.contains(\"Hello\")", "content.contains(\"world\")"]
    ensures Accepts(content, filters)
  {
    CreatorHelloKeywords(filters[0]);
    WorldKeywords(filters[1]);
    AllKeywordsTwo(filters[0], filters[1]);
    HelloWorldMemos(content);
    AcceptedWhen(content, filters, content);
  }

  /** hidden_content_test.go:110-115. */
  lemma FilterWithoutClause(content: string, filters: seq<string>)
    requires content == "Public info"
    requires filters == ["creator_id == 1 && content.contains(\"Public\")",
                        "creator_id == 1 || visibility in [\"PUBLIC\", \"PROTECTED\"]"]
    ensures Accepts(content, filters)
  {
    CreatorPublicCapitalKeywords(filters[0]);
    VisibilityKeywords(filters[1]);
    AllKeywordsTwo(filters[0], filters[1]);
    PublicInfoAlone(content);
    AcceptedWhen(content, filters, content);
  }

  /** hidden_content_test.go:116-121. */
  lemma NoClause(content: string, filters: seq<string>)
    requires content == "Any content"
    requires filters == ["creator_id == 1"]
    ensures Accepts(content, filters)
  {
    CreatorOnlyKeywords(filters[0]);
    AllKeywordsOne(filters[0]);
  }

  /** hidden_content_test.go:122-127. */
  lemma NoFilters(content: string, filters: seq<string>)
    requires content == "Any content"
    requires filters == []
    ensures Accepts(content, filters)
  {
    assert AllKeywords(filters) == [];
  }

  /** hidden_content_test.go:128-133. */
  lemma KeywordInBlockPlaceholder(content: string, filters: seq<string>)
    requires content == "This is [hide-block{foo:bar}] content"
    requires filters == ["content.contains(\"hide-block\")"]
    ensures !Accepts(content, filters)
  {
    HideBlockKeywords(filters[0]);
    AllKeywordsOne(filters[0]);
    FooBarContent(content);
    RejectedWhen(content, filters, "hide-block");
  }

  /** hidden_content_test.go:134-139. */
  lemma KeywordsFromSeveralFilters(content: string, filters: seq<string>)
    requires content == "Hello world example test"
    requires filters == ["content.contains(\"Hello\") && content.contains(\"world\")", "content.contains(\"example\")"]
    ensures Accepts(content, filters)
  {
    HelloWorldKeywords(filters[0]);
    ExampleKeywords(filters[1]);
    AllKeywordsTwo(filters[0], filters[1]);
    HelloWorldMemos(content);
    Example(content);
    FoundThree(content, "Hello", "world", "example");
    AcceptedWhen(content, filters, content);
  }

  // Beyond the tests

  /** `[hide-[hide-inline]inline]`, cut around its inner token. */
  lemma SplicedPieces(s: string)
    requires s == "[hide-[hide-inline]inline]"
    ensures s == "[hide-" + Text(InlinePlaceholder, Token(None)) + "inline]"
  {
    BareInlineText();
    assert "[hide-" + "[hide-inline]" == "[hide-[hide-inline]";
  }

  lemma SplicedVisible(s: string)
    requires s == "[hide-[hide-inline]inline]"
    ensures RemoveHiddenPlaceholders(s) == "[hide-inline]"
    ensures Contains(RemoveHiddenPlaceholders(s), "hide-inline")
  {
    SplicedPieces(s);
    SplicedToken("[hide-", "inline]");
    assert "[" + "hide-inline" + "]" == "[hide-inline]";
    FoundAfter("[", "hide-inline", "]");
  }

  /** The keyword `hide-inline` occurs in `[hide-[hide-inline]inline]` only
      inside placeholders, yet the memo is accepted: one removal pass joins
      the text around the deleted inner token into a new `[hide-inline]`,
      and the keyword is found in it. */
  lemma KeywordInSplicedPlaceholder(content: string, filters: seq<string>)
    requires content == "[hide-[hide-inline]inline]"
    requires filters == ["content.contains(\"hide-inline\")"]
    ensures RemoveHiddenPlaceholders(content) == "[hide-inline]"
    ensures Accepts(content, filters)
  {
    HideInlineKeywords(filters[0]);
    AllKeywordsOne(filters[0]);
    SplicedVisible(content);
    AcceptedWhen(content, filters, "[hide-inline]");
  }
}

=== FILE: strings.dfy ===
/** Small string toolkit shared by the scanners: optional values, substring
    occurrence, first-index searches, RE2's `\s` class, and Go's
    `strings.Split` / `strings.Join` on a one-character separator. */
module Optional {

  datatype Option<+T> = None | Some(value: T)
}

module Strings {
  import opened Optional

  /** `pat` occurs in `s` starting at index `i`. */
  predicate OccursAt(s: string, pat: string, i: int) {
    0 <= i && i + |pat| <= |s| && s[i..i + |pat|] == pat
  }

  /** `s` begins with `pat`. */
  predicate IsPrefix(pat: string, s: string) {
    |pat| <= |s| && s[..|pat|] == pat
  }

  /** Go's `strings.Contains`: `pat` is a substring of `s`. */
  predicate Contains(s: string, pat: string) {
    exists i :: 0 <= i <= |s| - |pat| && OccursAt(s, pat, i)
  }

  /** RE2's Perl class `\s`: space, `\t`, `\n`, `\f` and `\r` (no `\v`). */
  predicate IsSpace(c: char) {
    c == ' ' || c == '\t' || c == '\n' || c == '\U{C}' || c == '\r'
  }

  /** A text lacking one of the characters of `pat` does not contain it. */
  lemma MissingChar(s: string, pat: string, c: char)
    requires c in pat && c !in s
    ensures !Contains(s, pat)
  {
    forall i | 0 <= i <= |s| - |pat| ensures !OccursAt(s, pat, i) {
      var k :| 0 <= k < |pat| && pat[k] == c;
      assert s[i..i + |pat|][k] == s[i + k] != c;
    }
  }

  /** Concatenation is associative: `a + (b + c)` regroups as `a + b + c`. */
  lemma Assoc(a: string, b: string, c: string)
    ensures a + (b + c) == a + b + c
  {
  }

  /** The empty string is a unit of concatenation. */
  lemma EmptyUnit(a: string)
    ensures "" + a == a && a + "" == a
  {
  }

  /** A text missing from `s` is missing from its tail too. */
  lemma MissingInTail(s: string, pat: string)
    requires 0 < |s| && !Contains(s, pat)
    ensures !Contains(s[1..], pat)
  {
    if Contains(s[1..], pat) {
      var i :| 0 <= i <= |s[1..]| - |pat| && OccursAt(s[1..], pat, i);
      assert s[1..][i..i + |pat|] == s[i + 1..i + 1 + |pat|];
      assert OccursAt(s, pat, i + 1);
    }
  }

  lemma PrefixJoin(a: string, b: string, s: string)
    requires IsPrefix(a, s) && IsPrefix(b, s[|a|..])
    ensures IsPrefix(a + b, s)
  {
    assert s[..|a + b|] == s[..|a|] + s[|a|..][..|b|];
  }

  lemma PrefixSplit(a: string, b: string, s: string)
    requires IsPrefix(a + b, s)
    ensures IsPrefix(a, s) && IsPrefix(b, s[|a|..])
  {
    assert s[..|a|] == (a + b)[..|a|];
    assert s[|a|..][..|b|] == (a + b)[|a|..];
  }

  /** First index at or after `from` holding `c`. */
  function FindChar(s: string, c: char, from: nat): (r: Option<nat>)
    requires from <= |s|
    decreases |s| - from
    ensures r.Some? ==> from <= r.value < |s| && s[r.value] == c
    ensures r.Some? ==> forall k :: from <= k < r.value ==> s[k] != c
    ensures r.None? ==> forall k :: from <= k < |s| ==> s[k] != c
  {
    if from == |s| then None
    else if s[from] == c then Some(from)
    else FindChar(s, c, from + 1)
  }

  /** First index at or after `from` where `pat` occurs. */
  function FindSub(s: string, pat: string, from: nat): (r: Option<nat>)
    requires from <= |s|
    decreases |s| - from
    ensures r.Some? ==> from <= r.value && OccursAt(s, pat, r.value)
    ensures r.Some? ==> forall k :: from <= k < r.value ==> !OccursAt(s, pat, k)
    ensures r.None? ==> forall k :: from <= k ==> !OccursAt(s, pat, k)
  {
    if from + |pat| > |s| then None
    else if s[from..from + |pat|] == pat then Some(from)
    else FindSub(s, pat, from + 1)
  }

  /** Length of the run of `\s` characters starting at `from` (greedy `\s*`). */
  function SpaceRun(s: string, from: nat): (r: nat)
    requires from <= |s|
    decreases |s| - from
    ensures from + r <= |s|
    ensures forall k :: from <= k < from + r ==> IsSpace(s[k])
    ensures from + r < |s| ==> !IsSpace(s[from + r])
  {
    if from < |s| && IsSpace(s[from]) then 1 + SpaceRun(s, from + 1) else 0
  }

  /** Go's `strings.Join` with a one-character separator. */
  function Join(xs: seq<string>, sep: char): string {
    if |xs| == 0 then ""
    else if |xs| == 1 then xs[0]
    else xs[0] + [sep] + Join(xs[1..], sep)
  }

  /** Go's `strings.Split` with a one-character separator: always at least
      one piece, and `n` separators give `n + 1` pieces. */
  function Split(s: string, sep: char): (r: seq<string>)
    decreases |s|
    ensures |r| >= 1
    ensures forall i :: 0 <= i < |r| ==> sep !in r[i]
    ensures Join(r, sep) == s
  {
    match FindChar(s, sep, 0)
    case None => [s]
    case Some(j) =>
      var rest := Split(s[j + 1..], sep);
      assert s == s[..j] + [sep] + s[j + 1..];
      assert ([s[..j]] + rest)[1..] == rest;
      [s[..j]] + rest
  }

  /** Splitting undoes joining whenever no piece holds the separator. */
  lemma {:induction false} SplitJoin(xs: seq<string>, sep: char)
    requires |xs| >= 1
    requires forall i :: 0 <= i < |xs| ==> sep !in xs[i]
    ensures Split(Join(xs, sep), sep) == xs
  {
    if |xs| == 1 {
      assert FindChar(xs[0], sep, 0).None?;
    } else {
      var s := Join(xs, sep);
      assert s == xs[0] + [sep] + Join(xs[1..], sep);
      assert s[|xs[0]|] == sep;
      var j := FindChar(s, sep, 0);
      assert j == Some(|xs[0]|) by {
        forall k | 0 <= k < |xs[0]| ensures s[k] != sep {
          assert s[k] == xs[0][k];
        }
      }
      assert s[..|xs[0]|] == xs[0];
      assert s[|xs[0]| + 1..] == Join(xs[1..], sep);
      SplitJoin(xs[1..], sep);
    }
  }

  /** Number of occurrences of `c` in `s`. */
  function Count(s: string, c: char): nat {
    if |s| == 0 then 0 else (if s[0] == c then 1 else 0) + Count(s[1..], c)
  }

  lemma {:induction false} CountAppend(a: string, b: string, c: char)
    ensures Count(a + b, c) == Count(a, c) + Count(b, c)
  {
    if |a| > 0 {
      assert (a + b)[1..] == a[1..] + b;
      CountAppend(a[1..], b, c);
    } else {
      assert a + b == b;
    }
  }

  lemma {:induction false} CountAbsent(s: string, c: char)
    requires c !in s
    ensures Count(s, c) == 0
  {
    if |s| > 0 {
      assert c !in s[1..];
      CountAbsent(s[1..], c);
    }
  }

  /** `strings.Split` gives one piece more than there are separators. */
  lemma {:induction false} SplitCount(s: string, sep: char)
    ensures |Split(s, sep)| == Count(s, sep) + 1
    decreases |s|
  {
    match FindChar(s, sep, 0)
    case None =>
      CountAbsent(s, sep);
    case Some(j) =>
      assert s == s[..j] + ([sep] + s[j + 1..]);
      CountAppend(s[..j], [sep] + s[j + 1..], sep);
      CountAppend([sep], s[j + 1..], sep);
      assert sep !in s[..j];
      CountAbsent(s[..j], sep);
      assert Count([sep], sep) == 1;
      SplitCount(s[j + 1..], sep);
  }

  /** Every character of `x` occurs in `y`. */
  predicate CharsWithin(x: string, y: string) {
    forall c :: c in x ==> c in y
  }

  /** The characters of a join are the separator and those of the pieces. */
  lemma {:induction false} JoinCharsWithin(xs: seq<string>, sep: char, y: string)
    requires sep in y
    requires forall i :: 0 <= i < |xs| ==> CharsWithin(xs[i], y)
    ensures CharsWithin(Join(xs, sep), y)
  {
    if |xs| > 1 {
      JoinCharsWithin(xs[1..], sep, y);
    }
  }

  /** Each piece of a join lies inside the joined text. */
  lemma {:induction false} JoinPiecesWithin(xs: seq<string>, sep: char)
    ensures forall i :: 0 <= i < |xs| ==> CharsWithin(xs[i], Join(xs, sep))
  {
    if |xs| > 1 {
      JoinPiecesWithin(xs[1..], sep);
      forall i | 1 <= i < |xs| ensures CharsWithin(xs[i], Join(xs, sep)) {
        assert xs[i] == xs[1..][i - 1];
      }
    }
  }

  /** `a` is obtained from `b` by deleting characters. */
  predicate IsSubsequence(a: string, b: string)
    decreases |b|
  {
    || |a| == 0
    || (&& |b| > 0
        && ((a[0] == b[0] && IsSubsequence(a[1..], b[1..])) || IsSubsequence(a, b[1..])))
  }

  lemma {:induction false} SubsequenceLength(a: string, b: string)
    requires IsSubsequence(a, b)
    ensures |a| <= |b|
    decreases |b|
  {
    if |a| > 0 {
      if a[0] == b[0] && IsSubsequence(a[1..], b[1..]) {
        SubsequenceLength(a[1..], b[1..]);
      } else {
        SubsequenceLength(a, b[1..]);
      }
    }
  }

  lemma {:induction false} SubsequenceRefl(a: string)
    ensures IsSubsequence(a, a)
    decreases |a|
  {
    if |a| > 0 {
      SubsequenceRefl(a[1..]);
    }
  }

  /** Deleting a whole prefix keeps a subsequence. */
  lemma {:induction false} SubsequenceSkip(a: string, t: string, b: string)
    requires IsSubsequence(a, b)
    ensures IsSubsequence(a, t + b)
    decreases |t|
  {
    if |t| == 0 {
      assert t + b == b;
    } else if |a| > 0 {
      SubsequenceSkip(a, t[1..], b);
      assert (t + b)[1..] == t[1..] + b;
      assert IsSubsequence(a, (t + b)[1..]);
    }
  }

  lemma {:induction false} SubsequenceTrans(a: string, b: string, c: string)
    requires IsSubsequence(a, b) && IsSubsequence(b, c)
    ensures IsSubsequence(a, c)
    decreases |c|
  {
    if |a| > 0 {
      if b[0] == c[0] && IsSubsequence(b[1..], c[1..]) {
        if a[0] == b[0] && IsSubsequence(a[1..], b[1..]) {
          SubsequenceTrans(a[1..], b[1..], c[1..]);
        } else {
          SubsequenceTrans(a, b[1..], c[1..]);
        }
      } else {
        SubsequenceTrans(a, b, c[1..]);
      }
    }
  }
}
